=== FILE: README.md ===
# cloudflare-rag core in Dafny

A functional model of the request-handling logic of cloudflare-rag, a retrieval-augmented
chat application on Cloudflare Pages. Users upload PDFs, which are chunked, embedded and stored
in a vector index, then chat with a model that is given the retrieved chunks. The model covers
five pieces:

- **`ChatStream`** (`chat_stream.dfy`, from `functions/api/stream.ts`) handles a chat request.
  It rewrites the last message into at most five search queries and searches the index once
  per query. It merges the matches by first occurrence of their id, and writes three
  server-sent progress events. Finally it appends a "Relevant documents" user message and
  hands over to the answer stream, or writes `Error: …` if starting that stream fails.
- **`AiGateway`** (`ai_gateway.dfy`, from `app/lib/aiGateway.ts`) chooses between Workers AI
  and the AI Gateway universal endpoint, based on whether any API key is defined. It builds the
  provider fallback list and, for demo accounts, filters the costly models out of it. It moves
  the requested provider to the front with the requested model. It also parses a completion
  reply in the Anthropic format, or in the OpenAI/Groq format.
- **`ChatClient`** (`chat_client.dfy`, from `app/routes/_index.tsx`) is the chat page's
  handling of the answer stream. It extracts the token, then extends the open assistant
  message or starts a new one, dropping a token that is already at the end. It adds a hidden
  "Relevant context" message, shows only non-hidden messages, parses the model selector value
  and submits a message.
- **`FileUpload`** (`file_upload.dfy`, from `app/components/fileUpload.tsx`) covers two parts
  of the upload widget's state:
  - dropping failed files;
  - the sequential per-file upload loop, with the `"test"` short-circuit, the
    `"Uploading..."` placeholder, the precedence of error over chunks over message, and the
    network-error fallback.
- **`UploadHandler`** (`upload_handler.dfy`, from `functions/api/upload.ts`) validates an
  upload, joins the extracted pages with a space, and builds one vector record per embedding,
  with id `<timestamp>-<file name>-<index>`. It also returns the file summary.

Three shared modules support them:
- `Wrappers` holds `Option` and `Result`.
- `Text` models the JavaScript string built-ins the code relies on, with their round trips
  proved:
  - `split` on one character;
  - `join`;
  - `trim`, using the ECMAScript white-space set;
  - `endsWith`;
  - decimal rendering of an integer.
- `Seqs` has `filter` and a subsequence relation.

Everything outside these pure cores becomes a parameter:
- the models, the embedding model and the vector index;
- the PDF extractor and the text splitter;
- the clock;
- the bytes a stream delivers.

Data and definition helpers have no row of their own. They are covered by the rows of the
members whose contracts use them:
- `ChatStream.Frame`: the `data: …` framing;
- `ChatStream.Flatten`: `allResults.flat()`;
- `UploadHandler.IsUploadableFile`: the file check of the upload handler;
- `AiGateway.GatewayUrl`: the gateway URL;
- `AiGateway.StreamingProviders` and `AiGateway.CompletionProviders`: the provider lists.

JavaScript truthiness is modelled explicitly: `Truthy(s)` holds for a defined, non-empty
string. An absent property is `None`.

Behaviour of the code worth knowing when reading the model:
- The rewrite step keeps the first five non-blank lines of the reply (`slice(0, 5)`).
- Matches are merged by first occurrence of their id, in query order, and nothing else
  (no re-ranking and no text search).
- The index is queried and written in the fixed namespace `"default"`.
- The three progress events read `Rewriting message to queries...`,
  `Querying vector index...` and `Found relevant documents...`.
- Progress events are built by string interpolation, not JSON serialisation. The documents
  string joins the kept texts with a raw line break, so whenever two or more matches are kept
  the third event holds a line break inside a JSON string and cannot be parsed, whatever the
  documents contain (`ChatStream.FoundEventBreaksLine`). A `"` in a query or document breaks
  an event the same way. The page logs and skips such events (`ChatClient.HandleEvent` with
  `None`), so it never sees the found-documents event in those cases.
- Every upload record reads the clock on its own (`+new Date()` is inside the `map`). The ids
  are still pairwise distinct because they carry the chunk index.
- The model selector keeps the segment between the first and second `_` of its value as the
  model (`split("_")[1]`).
- `llmResponse` returns `choices[0].message.content` unchecked, so a choice without content
  yields `undefined` or `null` rather than a string (`Success(None)` in the model).

## Model

| member | source | states |
|---|---|---|
| ChatStream.ParseQueries | functions/api/stream.ts:19 | At most five queries, and they are the leading non-blank lines of the rewrite reply, in reply order (query i is non-blank line i). All non-blank lines are kept when there are at most five; exactly the first five when there are more. |
| ChatStream.ParsedQueriesAreReplyLines | functions/api/stream.ts:19 | Joining the reply's lines with `\n` gives the reply back, and every query is one of those lines. |
| ChatStream.ParseQueriesKeepsShortReply | functions/api/stream.ts:19 | A reply of one to five non-blank lines joined by `\n` parses back to exactly those lines. |
| ChatStream.RewritePrompt | functions/api/stream.ts:8-13 | The rewrite prompt is the fixed instruction, then the user's message between quotes, as it is and unescaped, then the fixed closing line; the message can be read back at a fixed offset. |
| ChatStream.FirstSeen | functions/api/stream.ts:54-61 | The merged matches cover exactly the ids of the input, and no id repeats. |
| ChatStream.FirstSeenKeepsFirstOccurrence | functions/api/stream.ts:54-61 | For each id, the kept match is the first match with that id, because a later duplicate never replaces it (`!uniqueResults.has`). |
| ChatStream.FirstSeenInFirstOccurrenceOrder | functions/api/stream.ts:54-65 | The merged matches come in the order their ids first occur, which is the `Map`'s insertion order read back by `values()`. |
| ChatStream.MergeUnique | functions/api/stream.ts:54-61 | The nested loop over every result list and its matches computes the first-occurrence merge of the flattened results. |
| ChatStream.MatchTexts | functions/api/stream.ts:65-66 | One text per kept match, in order: the match's `metadata.text`, or `""` when it is absent. |
| ChatStream.RelevantDocs | functions/api/stream.ts:65-67 | No kept match gives `""`. Otherwise every kept text sits at its offset, with one line break before each text after the first, whatever the texts contain. |
| ChatStream.RelevantDocsSplitsIntoTexts | functions/api/stream.ts:65-67 | When no text contains a newline, splitting the relevant-documents string on `\n` gives back exactly one text per match. |
| ChatStream.Augment | functions/api/stream.ts:73-76 | The answer model gets the request's messages unchanged, followed by one user message `Relevant documents:\n` + the documents. |
| ChatStream.Unframe | functions/api/stream.ts:36 | A server-sent event that unframes to a payload is exactly `data: ` + payload + a blank line. |
| ChatStream.UnframeFrame | functions/api/stream.ts:36 | Framing a payload as a server-sent event and unframing it gives the payload back. |
| ChatStream.ProgressEvents | functions/api/stream.ts:36-70 | Exactly three progress events, in this order: rewriting, querying with the queries, found with the documents. |
| ChatStream.FoundEventBreaksLine | functions/api/stream.ts:65-70 | With two or more kept matches, the third event's payload holds a raw line break inside its quoted `relevantDocs` value, right after the first text, whatever the texts are. |
| ChatStream.IndexQueries | functions/api/stream.ts:39-51 | One index query per search query, for that query's embedding, with topK 5, values returned, all metadata and namespace `default`. |
| ChatStream.SearchAll | functions/api/stream.ts:45-52 | One result list per index query, and list i is the index's answer to query i (`Promise.all` keeps the order). |
| ChatStream.HandleChat | functions/api/stream.ts:8-76 | Fails exactly when there is no last message to read. On success it pins down each stage: the rewrite model gets the rewrite prompt for the last message, the queries are its parsed reply, the index queries follow them, and the kept matches are the first-occurrence merge of all results, with distinct ids. The events are the three progress events, and the outgoing messages are the originals plus the documents message. |
| ChatStream.ResponseBody | functions/api/stream.ts:78-90 | The body always starts with the progress events. It then carries the answer stream verbatim, or `Error: ` + the error when starting the stream fails. |
| AiGateway.EnsureApiKeys | app/lib/aiGateway.ts:155-157 | True exactly when some key value is not `undefined`. `null` and `""` count as provided. |
| AiGateway.EnsureApiKeysOfRecord | app/lib/aiGateway.ts:155-157 | For the three-key record, the check holds exactly when the OpenAI, Anthropic or Groq key is not `undefined`. |
| AiGateway.DemoFilter | app/lib/aiGateway.ts:128-133 | The demo list keeps, in order, exactly the providers whose model is neither `gpt-4o` nor `claude-3-5-sonnet-20240620`. |
| AiGateway.DemoFilterOfStreamingProviders | app/lib/aiGateway.ts:43-133 | For demo accounts, the six streaming providers reduce to groq 8b, gpt-4o-mini, claude-3-haiku and groq 70b, in that order. |
| AiGateway.FindProvider | app/lib/aiGateway.ts:136 | `find` returns the first entry of the requested provider, or nothing when there is none. |
| AiGateway.SelectProvider | app/lib/aiGateway.ts:135-142 | If provider or model is empty, or no entry matches, the list is unchanged. Otherwise the first matching entry, carrying the requested model, moves to the front and the rest keep their order. |
| AiGateway.SelectProviderKeepsProviders | app/lib/aiGateway.ts:135-142 | Selection is a permutation of the provider names: none are lost or duplicated. |
| AiGateway.SelectProviderIdempotent | app/lib/aiGateway.ts:135-142 | Selecting the same provider and model twice gives the same list as selecting once. |
| AiGateway.SelectProviderModels | app/lib/aiGateway.ts:135-142 | Every entry after selection is an entry of the original list or carries the requested model: selection introduces no other model. |
| AiGateway.SelectedProviderLeads | app/lib/aiGateway.ts:135-141 | When the list holds an entry of the requested provider, a non-empty request puts that provider first with the requested model. |
| AiGateway.StreamRoute | app/lib/aiGateway.ts:33-153 | Workers AI with the default model exactly when no key is provided and the binding exists. Otherwise the gateway URL for the account, with the selection applied to the (demo-filtered) streaming list. |
| AiGateway.DemoRestrictionBypassedBySelection | app/lib/aiGateway.ts:128-142 | Code as written: a demo request for provider `openai` with model `gpt-4o` gets `gpt-4o` first in the list sent to the gateway. |
| AiGateway.DemoSafeStreamRoute | app/lib/aiGateway.ts:128-142 | Corrected routing: a demo account never sends `gpt-4o` or `claude-3-5-sonnet-20240620`. Apart from that, it agrees with the code. |
| AiGateway.CompletionRoute | app/lib/aiGateway.ts:186-253 | Same key rule as streaming. The gateway gets the three completion providers with the selection applied, and no demo filter. |
| AiGateway.ParseReply | app/lib/aiGateway.ts:255-272 | A non-2xx status fails with that status, and a body that is not JSON fails. An OK JSON reply succeeds exactly when it has a truthy `content.text` or a `choices[0].message`, and otherwise fails as an unexpected format. `content.text` wins; failing that, `choices[0].message.content` is returned as it is, missing content included. |
| AiGateway.AnthropicReplyYieldsText | app/lib/aiGateway.ts:263-265 | An OK reply with a non-empty `content.text` yields that text, whatever `choices` holds. |
| AiGateway.ChatCompletionReplyYieldsContent | app/lib/aiGateway.ts:266-268 | An OK OpenAI or Groq reply without a non-empty `content.text` yields the first choice's message content as it is, missing content included. |
| AiGateway.UnknownReplyIsRejected | app/lib/aiGateway.ts:269-272 | An OK reply with neither format, such as no `choices` or an empty `choices`, fails as an unexpected format. |
| AiGateway.ErrorMessage | app/lib/aiGateway.ts:255-272 | The thrown messages: `HTTP error! status: ` followed by the status, and `Unexpected response format from AI provider`. A body that is not JSON throws the engine's own error, whose text is not modelled. |
| AiGateway.ErrorMessageNamesStatus | app/lib/aiGateway.ts:256 | The status can be read back from an HTTP error's message: after the prefix come only digits, and their value is the status. |
| AiGateway.LlmResponse | app/lib/aiGateway.ts:186-274 | Workers AI's `response` when that route is taken, otherwise the parsed gateway reply. |
| ChatClient.NewContent | app/routes/_index.tsx:88-92 | The token is the first truthy of `response`, `choices[0].delta.content` and `delta.text`, and is empty exactly when none is truthy. |
| ChatClient.WorkersAiChunkYieldsResponse | app/routes/_index.tsx:88-89 | A Workers AI chunk with a non-empty `response` yields that text, whatever else it carries. |
| ChatClient.ChatCompletionChunkYieldsDelta | app/routes/_index.tsx:88-90 | An OpenAI or Groq chunk yields its first choice's delta content when there is no `response`. |
| ChatClient.AnthropicChunkYieldsText | app/routes/_index.tsx:88-91 | An Anthropic chunk yields its `delta.text` when neither earlier format carries text. |
| ChatClient.ProgressChunkHasNoToken | app/routes/_index.tsx:88-94 | A chunk with no `response`, `choices` or `delta`, such as a progress event, has no token. |
| ChatClient.AppendToken | app/routes/_index.tsx:98-119 | An open (visible assistant) last message is extended unless it already ends with the token, in which case nothing changes. Otherwise a new assistant message is started. Afterwards the list always ends with an open answer ending in the token. |
| ChatClient.AppendTokenIdempotent | app/routes/_index.tsx:97-118 | Applying the same token twice, as a doubled updater would, gives the same list as applying it once. |
| ChatClient.ContextTexts | app/routes/_index.tsx:137 | One text per context item, in order. |
| ChatClient.ContextMessage | app/routes/_index.tsx:129-141 | The context message is a hidden assistant message. Its content is `Relevant context:\n` followed by the item texts, each at its offset with a newline before every text after the first, whatever the texts contain; with no items it is the header alone. |
| ChatClient.ContextMessageSplitsIntoTexts | app/routes/_index.tsx:135-137 | After the header, the context message splits on `\n` back into the item texts, when they contain no newline. |
| ChatClient.RenderedMessages | app/routes/_index.tsx:372-373 | The rendered messages are exactly the non-hidden ones, in their original order, with every copy of a repeated message kept. |
| ChatClient.ContextMessageIsInvisible | app/routes/_index.tsx:98-141 | Adding the context message changes nothing on screen, and makes the next token start a new assistant message. |
| ChatClient.SelectorChoice | app/routes/_index.tsx:257-260 | The provider is the value up to the first `_`. There is no model exactly when the value has no `_`. Otherwise the model is the segment between the first and second `_`, or up to the end of the value when there is no second `_`; it contains no `_`. |
| ChatClient.SelectorRoundTrip | app/routes/_index.tsx:257-261 | For a provider and model without `_`, the value `provider_model` selects exactly that provider and model. |
| ChatClient.HandleEvent | app/routes/_index.tsx:84-148 | An unparseable event changes nothing. Otherwise the precedence is token, then informative message, then error toast, and an event with none of them leaves the informative text and the toasts alone. A context list appends the hidden context message after any token update and replaces the stored context. Queries replace the stored queries. Earlier messages and the input are never changed. |
| ChatClient.SendMessage | app/routes/_index.tsx:59-82 | Nothing is sent exactly when the form input trims to empty. Otherwise one user message is appended with the question or the input text, and the input and the context are reset. The informative text, the queries and the toasts are unchanged. The request carries every message (hidden ones included) as role and content. |
| FileUpload.RemoveErrorFiles | app/components/fileUpload.tsx:53-64 | Exactly the entries with status `error` are removed, and the others are unchanged. Exactly the files whose entry has status `error` are dropped; the others keep their order and every copy of them. |
| FileUpload.RemoveErrorFilesKeepsClean | app/components/fileUpload.tsx:53-64 | When no entry has status `error`, the state is unchanged. |
| FileUpload.RemoveErrorFilesIdempotent | app/components/fileUpload.tsx:53-64 | Removing failed files twice is the same as removing them once. |
| FileUpload.ApplyEvent | app/components/fileUpload.tsx:104-122 | A truthy error records the error and stops the handler. Failing that, a chunk list records success with its length; failing that, a truthy message becomes the status; otherwise nothing changes. No other file's entry changes. |
| FileUpload.RunEvents | app/components/fileUpload.tsx:95-130 | Only the current file's entry changes, and it stays present. The handler returns only when some event carries a truthy error, and then the entry is a truthy error. When every event parses without an error and the request then fails, the entry is the network error whatever the events wrote. |
| FileUpload.UnparseableEventIsNetworkError | app/components/fileUpload.tsx:101-128 | Data that is not JSON, after any number of events that parse without an error, throws into the catch: the file's entry becomes the `Network error` entry whatever the earlier events wrote, nothing else changes, and the loop goes on to the next file. |
| FileUpload.QuietReplyChangesNothing | app/components/fileUpload.tsx:101-123 | A reply with no events and no failure leaves the map as it was. |
| FileUpload.ErrorEventStops | app/components/fileUpload.tsx:101-110 | An error event, after any number of events that parse without an error, returns from the handler with `{chunks: 0, status: "error", error}` as the file's entry, whatever the earlier events wrote and whatever follows. |
| FileUpload.UploadFiles | app/components/fileUpload.tsx:71-131 | Entries for names that are not among the new files are left as they were. The file list is kept, unless a `test` file among them replaces it by its stand-in. |
| FileUpload.HandleFileChange | app/components/fileUpload.tsx:66-131 | Entries for names that are not among the new files are exactly the cleaned entries: failed ones removed, the others unchanged. The file list becomes the cleaned list followed by the new files, unless a `test` file among them replaces it by its stand-in. |
| FileUpload.TestFileShortCircuits | app/components/fileUpload.tsx:72-84 | For the first (in practice the only) file of the batch: a `test` file is marked 129 chunks and `success`, the file list becomes the stand-in PDF, and no later file is handled. |
| FileUpload.SilentReplyLeavesUploading | app/components/fileUpload.tsx:86-89 | For the first (in practice the only) file of the batch: a file whose reply carries no events stays `Uploading...` with zero chunks. |
| FileUpload.ErrorStopsLaterFiles | app/components/fileUpload.tsx:71-110 | An error event on a file, at any position after quiet events and after any earlier files that upload without an error event, marks that file failed, keeps the file list, and sends no request for any later file. |
| UploadHandler.TextContent | functions/api/upload.ts:27 | Merged text is kept as is. Pages are joined with one space: no pages give `""`, and otherwise every page sits at its offset with a single space before each page after the first, whatever the pages contain. When no page contains a space, splitting on spaces gives back the pages. |
| UploadHandler.BuildRecords | functions/api/upload.ts:45-54 | One record per embedding, carrying that embedding. The namespace is `default`, the text is the chunk at the same index (absent beyond the chunks), and the id is `<clock>-<name>-<index>`. |
| UploadHandler.RecordIdInjective | functions/api/upload.ts:47 | For one file name, equal ids imply the same timestamp and the same index. |
| UploadHandler.RecordIdsDistinct | functions/api/upload.ts:45-54 | The records of one upload have pairwise distinct ids, whatever the clock returns. |
| UploadHandler.RecordsCarryChunks | functions/api/upload.ts:45-54 | When there are as many chunks as embeddings, every record carries its chunk's text. |
| UploadHandler.HandleUpload | functions/api/upload.ts:5-70 | 400 `Expected a POST request with a file` for a method other than POST. 400 `Please upload a PDF file.` for a `pdf` field that is not a file. Otherwise the split chunks of the extracted text, the file's name, type and size, and one record per embedded chunk. |

## Left out

- The network and the AI bindings are parameters, not models: `fetch`, `AI.run`, the vector
  index query and insert, and the event-stream reader.
- Stream plumbing is not modelled: `TransformStream`, `waitUntil`, the writer lock, the
  response headers and back-pressure. An exception thrown while reading the request or before
  the answer stream starts (the handler has no `try` there) leaves the response open; the model
  stops at the `ChatStream.HandleChat` result.
- PDF extraction (`unpdf`) and `RecursiveCharacterTextSplitter` (chunk size 1000, overlap 200)
  are opaque parameters of `UploadHandler.HandleUpload`, because they are third-party
  libraries.
- `JSON.parse` and `JSON.stringify` are not modelled. A parsed event is a datatype of the
  fields that are read, and an unparseable one is `None`.
- Rendering, scrolling, toasts other than the error list, `console` output, `onChange`
  callbacks, the session id (`crypto.randomUUID`) and the suggested questions are not modelled,
  because they are user-interface or logging side effects.
- Strings are sequences of Unicode scalar values, not UTF-16 code units, so `endsWith` and
  `trim` on surrogate pairs are not distinguished.
- The `Date` clock is a function from the record index to a natural number, because the code
  reads it once per record.
- The `mergePages` option of the extractor is not modelled: both result shapes (one text, or
  an array of pages) are accepted.
- The other files under `functions/api/` (`stream2.ts`, `streamm.ts`, `hermes-problem.ts`) and
  the database schema are not part of this model.
- FileUpload.UploadFiles: its contract states the entries for names outside the batch and the
  file list. The per-file outcomes (test short-circuit, placeholder, error stop, network error)
  are stated by the lemmas that follow it. The entry left by a run of events that parse
  without an error is stated only for the silent reply and the failing request.
- FileUpload.RemoveErrorFiles: both filters read the same state, while the code filters the
  files against the `fileInfo` captured at render time. The two coincide when no update is
  pending.
- FileUpload.RunEvents: a failure while reading the stream is modelled as one failure after
  the delivered events (`failsAfter`), not at an arbitrary point inside an event.
- ChatClient.HandleEvent: a non-string `message` or `error` value (a number, an object) is not
  modelled. Both are strings or absent.
- ChatClient.AppendToken: the guard against a doubled updater also drops a token that
  legitimately repeats the end of the answer (for example, a second `"a"` after `"a"`). The model
  keeps this behaviour and does not correct it.
- ChatClient.HandleEvent: the handler sends `queries` as one comma-joined string, while the page
  types it as a list. In the source an empty string is falsy and leaves the stored queries
  unchanged; the model's chunk carries a list, which is always truthy, so that case is not
  modelled.
- AiGateway.ParseReply: `undefined` and `null` message content are both `None`, so the
  model does not say which of the two is returned.
- AiGateway.ErrorMessage: the `SyntaxError` text for a body that is not JSON comes from the
  JavaScript engine and is not modelled.
- ChatStream.HandleChat: the page reads `relevantContext`, while this handler sends
  `relevantDocs`, so the page never shows the retrieved documents. The two are modelled
  separately and not linked.

## Findings

| source | as written | input that shows it | evidently intended | confidence | as-written member | corrected member |
|---|---|---|---|---|---|---|
| app/lib/aiGateway.ts:128-142 | The demo filter removes `gpt-4o` and `claude-3-5-sonnet-20240620` from the list. The provider selection then sets the requested model on the first entry of the requested provider, with no check. | `isDemo = true`, some API key defined, `provider = "openai"`, `model = "gpt-4o"`: the first entry sent to the gateway is `gpt-4o-mini` renamed to `gpt-4o` | A demo account never sends the blocked models, as the comment at line 129 says | not executed | AiGateway.DemoRestrictionBypassedBySelection | AiGateway.DemoSafeStreamRoute |

=== FILE: ai_gateway.dfy ===
/** Provider selection and reply parsing of the AI gateway client (app/lib/aiGateway.ts).
    The gateway `fetch` and the Workers AI binding are not called: the model returns where
    the request goes (the Workers AI model, or the gateway URL with the provider list), and
    takes the reply as an input. The chat messages, the `Content-Type` headers and Workers
    AI's `stream: true` option are not part of the returned route. */
module AiGateway {
  import opened Wrappers
  import opened Text
  import opened Seqs

  const DefaultModel := "@cf/meta/llama-3.1-8b-instruct"
  const GatewayId := "cloudflare-rag"

  /** A value of the `apiKeys` record: `undefined`, JSON `null`, or a string. */
  datatype KeyValue = Undefined | Null | Key(s: string)

  /** The `apiKeys` argument of both entry points. */
  datatype ApiKeys = ApiKeys(openai: KeyValue, anthropic: KeyValue, groq: KeyValue)

  /** `Object.values(apiKeys)` for a record built with these three properties. */
  function KeyValues(keys: ApiKeys): seq<KeyValue> {
    [keys.openai, keys.anthropic, keys.groq]
  }

  /** `Object.values(apiKeys).some((key) => key !== undefined)`. */
  function EnsureApiKeys(values: seq<KeyValue>): (r: bool)
    ensures r <==> exists i :: 0 <= i < |values| && values[i] != Undefined
    decreases |values|
  {
    if |values| == 0 then false
    else values[0] != Undefined || EnsureApiKeys(values[1..])
  }

  /** For the three-key record: at least one key is present (a `null` key counts). */
  lemma EnsureApiKeysOfRecord(keys: ApiKeys)
    ensures EnsureApiKeys(KeyValues(keys))
      <==> keys.openai != Undefined || keys.anthropic != Undefined || keys.groq != Undefined
  {
    var v := KeyValues(keys);
    assert v[0] == keys.openai && v[1] == keys.anthropic && v[2] == keys.groq;
  }

  /** The credential header of a provider entry. */
  datatype Credential =
    | Bearer(headerName: string, key: KeyValue)        // `<headerName>: Bearer ${key}`
    | AnthropicKey(version: string, key: KeyValue)     // `anthropic-version` and `x-api-key`

  /** One entry of the gateway's provider list; `stream` is false where the entry has no
      `stream` property, and `maxTokens` is `None` where it has no `max_tokens`. */
  datatype ProviderEntry = ProviderEntry(
    provider: string, endpoint: string, credential: Credential,
    model: string, stream: bool, maxTokens: Option<nat>)

  function Groq(keys: ApiKeys, model: string, stream: bool): ProviderEntry {
    ProviderEntry("groq", "chat/completions", Bearer("Authorization", keys.groq), model, stream, None)
  }

  function OpenAi(keys: ApiKeys, model: string, stream: bool): ProviderEntry {
    ProviderEntry("openai", "chat/completions", Bearer("authorization", keys.openai), model, stream, None)
  }

  function Anthropic(keys: ApiKeys, model: string, stream: bool): ProviderEntry {
    ProviderEntry("anthropic", "v1/messages", AnthropicKey("2023-06-01", keys.anthropic), model, stream, Some(1024))
  }

  /** The six-entry list of the streaming entry point, in fallback order. */
  function StreamingProviders(keys: ApiKeys): seq<ProviderEntry> {
    [ Groq(keys, "llama-3.1-8b-instant", true),
      OpenAi(keys, "gpt-4o-mini", true),
      OpenAi(keys, "gpt-4o", true),
      Anthropic(keys, "claude-3-haiku-20240307", true),
      Anthropic(keys, "claude-3-5-sonnet-20240620", true),
      Groq(keys, "llama-3.1-70b-versatile", true) ]
  }

  /** The three-entry list of the non-streaming entry point. */
  function CompletionProviders(keys: ApiKeys): seq<ProviderEntry> {
    [ Groq(keys, "llama-3.1-8b-instant", false),
      OpenAi(keys, "gpt-4o-mini", false),
      Anthropic(keys, "claude-3-haiku-20240307", false) ]
  }

  /** Models a demo account may not use. */
  predicate IsDemoBlocked(model: string) {
    model == "gpt-4o" || model == "claude-3-5-sonnet-20240620"
  }

  predicate DemoAllowed(p: ProviderEntry) {
    !IsDemoBlocked(p.model)
  }

  /** `providers.filter((p) => p.query.model !== "gpt-4o" && p.query.model !== "claude-3-5-sonnet-20240620")`. */
  function DemoFilter(ps: seq<ProviderEntry>): (r: seq<ProviderEntry>)
    ensures forall i :: 0 <= i < |r| ==> !IsDemoBlocked(r[i].model)
    ensures forall p :: p in r <==> p in ps && !IsDemoBlocked(p.model)
    ensures IsSubsequence(r, ps)
  {
    FilterMembers(DemoAllowed, ps);
    FilterIsSubsequence(DemoAllowed, ps);
    Filter(DemoAllowed, ps)
  }

  /** On the built-in list the demo filter leaves four entries, GPT-4o and Claude 3.5 Sonnet removed. */
  lemma DemoFilterOfStreamingProviders(keys: ApiKeys)
    ensures Filter(DemoAllowed, StreamingProviders(keys)) ==
      [ Groq(keys, "llama-3.1-8b-instant", true),
        OpenAi(keys, "gpt-4o-mini", true),
        Anthropic(keys, "claude-3-haiku-20240307", true),
        Groq(keys, "llama-3.1-70b-versatile", true) ]
  {
    var a, b, c := Groq(keys, "llama-3.1-8b-instant", true), OpenAi(keys, "gpt-4o-mini", true), OpenAi(keys, "gpt-4o", true);
    var d, e, f := Anthropic(keys, "claude-3-haiku-20240307", true), Anthropic(keys, "claude-3-5-sonnet-20240620", true), Groq(keys, "llama-3.1-70b-versatile", true);
    assert StreamingProviders(keys) == [a] + ([b] + ([c] + ([d] + ([e] + [f]))));
    FilterCons(DemoAllowed, f, []);
    FilterCons(DemoAllowed, e, [f]);
    FilterCons(DemoAllowed, d, [e] + [f]);
    FilterCons(DemoAllowed, c, [d] + ([e] + [f]));
    FilterCons(DemoAllowed, b, [c] + ([d] + ([e] + [f])));
    FilterCons(DemoAllowed, a, [b] + ([c] + ([d] + ([e] + [f]))));
  }

  /** `providers.find((p) => p.provider === provider)`, as an index. */
  function FindProvider(ps: seq<ProviderEntry>, provider: string): (r: Option<nat>)
    ensures r.Some? ==> r.value < |ps| && ps[r.value].provider == provider
    ensures r.Some? ==> forall j :: 0 <= j < r.value ==> ps[j].provider != provider
    ensures r.None? ==> forall j :: 0 <= j < |ps| ==> ps[j].provider != provider
    decreases |ps|
  {
    if |ps| == 0 then None
    else if ps[0].provider == provider then Some(0)
    else match FindProvider(ps[1..], provider)
      case None => None
      case Some(k) => Some(k + 1)
  }

  function Providers(ps: seq<ProviderEntry>): seq<string>
    ensures |Providers(ps)| == |ps|
    decreases |ps|
  {
    if |ps| == 0 then [] else [ps[0].provider] + Providers(ps[1..])
  }

  /** The requested-provider step of both entry points: when provider and model are both
      non-empty and some entry has that provider, the first such entry gets the requested
      model and is moved to the front (`splice` then `unshift`); otherwise nothing changes. */
  function SelectProvider(ps: seq<ProviderEntry>, provider: string, model: string): (r: seq<ProviderEntry>)
    ensures |r| == |ps|
    ensures (provider == "" || model == "" || FindProvider(ps, provider).None?) ==> r == ps
    ensures provider != "" && model != "" && FindProvider(ps, provider).Some? ==>
      var i := FindProvider(ps, provider).value;
      && r[0] == ps[i].(model := model)
      && r[1..] == ps[..i] + ps[i + 1..]
  {
    if provider != "" && model != "" then
      match FindProvider(ps, provider)
      case None => ps
      case Some(i) => [ps[i].(model := model)] + (ps[..i] + ps[i + 1..])
    else ps
  }

  lemma {:induction false} ProvidersAppend(a: seq<ProviderEntry>, b: seq<ProviderEntry>)
    ensures Providers(a + b) == Providers(a) + Providers(b)
    decreases |a|
  {
    if |a| > 0 {
      assert (a + b)[1..] == a[1..] + b;
      ProvidersAppend(a[1..], b);
    } else {
      assert a + b == b;
    }
  }

  /** Reordering keeps every entry: the multiset of provider names is unchanged. */
  lemma SelectProviderKeepsProviders(ps: seq<ProviderEntry>, provider: string, model: string)
    ensures multiset(Providers(SelectProvider(ps, provider, model))) == multiset(Providers(ps))
  {
    var r := SelectProvider(ps, provider, model);
    if provider != "" && model != "" && FindProvider(ps, provider).Some? {
      var i := FindProvider(ps, provider).value;
      var head := [ps[i].(model := model)];
      assert r == head + (ps[..i] + ps[i + 1..]);
      ProvidersAppend(head, ps[..i] + ps[i + 1..]);
      ProvidersAppend(ps[..i], ps[i + 1..]);
      assert ps == ps[..i] + ([ps[i]] + ps[i + 1..]);
      ProvidersAppend(ps[..i], [ps[i]] + ps[i + 1..]);
      ProvidersAppend([ps[i]], ps[i + 1..]);
      assert Providers(head) == Providers([ps[i]]) == [ps[i].provider];
    }
  }

  /** Selecting twice with the same request is the same as selecting once. */
  lemma SelectProviderIdempotent(ps: seq<ProviderEntry>, provider: string, model: string)
    ensures SelectProvider(SelectProvider(ps, provider, model), provider, model)
      == SelectProvider(ps, provider, model)
  {
    var r := SelectProvider(ps, provider, model);
    if provider != "" && model != "" && FindProvider(ps, provider).Some? {
      assert r[0].provider == provider;
      assert FindProvider(r, provider) == Some(0);
      assert r[0].(model := model) == r[0];
      assert r == [r[0]] + r[1..];
    }
  }

  // ---------------------------------------------------------------------------
  // Routing

  /** Where a request goes: the Workers AI binding with the default model, or one POST to
      the gateway's universal endpoint carrying the provider list. */
  datatype Route =
    | WorkersAi(model: string)
    | Gateway(url: string, providers: seq<ProviderEntry>)

  function GatewayUrl(accountId: string): string {
    "https://gateway.ai.cloudflare.com/v1/" + accountId + "/" + GatewayId + "/"
  }

  /** The list `streamLLMResponse` starts from: the six entries, demo-filtered for a demo account. */
  function StreamingCandidates(keys: ApiKeys, isDemo: bool): seq<ProviderEntry> {
    if isDemo then DemoFilter(StreamingProviders(keys)) else StreamingProviders(keys)
  }

  /** `streamLLMResponse` up to the network call. */
  function StreamRoute(
    keys: ApiKeys, hasWorkersAi: bool, isDemo: bool,
    accountId: string, provider: string, model: string): (r: Route)
    ensures r.WorkersAi? <==> !EnsureApiKeys(KeyValues(keys)) && hasWorkersAi
    ensures r.WorkersAi? ==> r.model == DefaultModel
    ensures r.Gateway? ==> r.url == GatewayUrl(accountId)
    ensures r.Gateway? ==> r.providers == SelectProvider(StreamingCandidates(keys, isDemo), provider, model)
    ensures r.Gateway? ==>
      multiset(Providers(r.providers)) == multiset(Providers(StreamingCandidates(keys, isDemo)))
  {
    if !EnsureApiKeys(KeyValues(keys)) && hasWorkersAi then WorkersAi(DefaultModel)
    else
      var ps := StreamingCandidates(keys, isDemo);
      SelectProviderKeepsProviders(ps, provider, model);
      Gateway(GatewayUrl(accountId), SelectProvider(ps, provider, model))
  }

  /** When the list has an entry of the requested provider, a non-empty request puts that
      provider first, carrying the requested model. */
  lemma SelectedProviderLeads(ps: seq<ProviderEntry>, provider: string, model: string, p: ProviderEntry)
    requires provider != "" && model != ""
    requires p in ps && p.provider == provider
    ensures |SelectProvider(ps, provider, model)| > 0
    ensures SelectProvider(ps, provider, model)[0].provider == provider
    ensures SelectProvider(ps, provider, model)[0].model == model
  {
    assert FindProvider(ps, provider).Some?;
  }

  /** As written, the demo filter runs before the requested model is written into the
      first matching entry, so a demo account that asks for `openai_gpt-4o` still gets
      GPT-4o at the head of the list. */
  lemma DemoRestrictionBypassedBySelection(keys: ApiKeys, accountId: string)
    ensures StreamRoute(keys, false, true, accountId, "openai", "gpt-4o").Gateway?
    ensures StreamRoute(keys, false, true, accountId, "openai", "gpt-4o").providers[0].model == "gpt-4o"
  {
    var mini := OpenAi(keys, "gpt-4o-mini", true);
    assert StreamingProviders(keys)[1] == mini;
    assert mini in StreamingCandidates(keys, true);
    SelectedProviderLeads(StreamingCandidates(keys, true), "openai", "gpt-4o", mini);
  }

  /** The demo restriction as its comment states it: a demo account's request for a
      blocked model is ignored, so no blocked model is ever sent for a demo account. */
  function DemoSafeStreamRoute(
    keys: ApiKeys, hasWorkersAi: bool, isDemo: bool,
    accountId: string, provider: string, model: string): (r: Route)
    ensures r.WorkersAi? <==> !EnsureApiKeys(KeyValues(keys)) && hasWorkersAi
    ensures r.Gateway? ==>
      multiset(Providers(r.providers)) == multiset(Providers(StreamingCandidates(keys, isDemo)))
    ensures r.Gateway? && isDemo ==> forall i :: 0 <= i < |r.providers| ==> !IsDemoBlocked(r.providers[i].model)
    ensures !(isDemo && IsDemoBlocked(model)) ==> r == StreamRoute(keys, hasWorkersAi, isDemo, accountId, provider, model)
  {
    if !EnsureApiKeys(KeyValues(keys)) && hasWorkersAi then WorkersAi(DefaultModel)
    else
      var ps := StreamingCandidates(keys, isDemo);
      var request := if isDemo && IsDemoBlocked(model) then "" else model;
      SelectProviderKeepsProviders(ps, provider, request);
      SelectProviderModels(ps, provider, request);
      Gateway(GatewayUrl(accountId), SelectProvider(ps, provider, request))
  }

  /** Every entry after selection is an entry of the input or carries the requested model. */
  lemma SelectProviderModels(ps: seq<ProviderEntry>, provider: string, model: string)
    ensures forall i :: 0 <= i < |SelectProvider(ps, provider, model)| ==>
      SelectProvider(ps, provider, model)[i] in ps || SelectProvider(ps, provider, model)[i].model == model
  {
    var r := SelectProvider(ps, provider, model);
    if provider != "" && model != "" && FindProvider(ps, provider).Some? {
      var k := FindProvider(ps, provider).value;
      forall i | 1 <= i < |r|
        ensures r[i] in ps
      {
        assert r[i] == (ps[..k] + ps[k + 1..])[i - 1];
        if i - 1 < k { assert r[i] == ps[i - 1]; } else { assert r[i] == ps[i]; }
      }
    }
  }

  /** `llmResponse` up to the network call (no demo filter on this path). */
  function CompletionRoute(
    keys: ApiKeys, hasWorkersAi: bool, accountId: string, provider: string, model: string): (r: Route)
    ensures r.WorkersAi? <==> !EnsureApiKeys(KeyValues(keys)) && hasWorkersAi
    ensures r.WorkersAi? ==> r.model == DefaultModel
    ensures r.Gateway? ==> r.url == GatewayUrl(accountId) && |r.providers| == 3
    ensures r.Gateway? ==> r.providers == SelectProvider(CompletionProviders(keys), provider, model)
    ensures r.Gateway? ==> multiset(Providers(r.providers)) == multiset(Providers(CompletionProviders(keys)))
  {
    if !EnsureApiKeys(KeyValues(keys)) && hasWorkersAi then WorkersAi(DefaultModel)
    else
      SelectProviderKeepsProviders(CompletionProviders(keys), provider, model);
      Gateway(GatewayUrl(accountId), SelectProvider(CompletionProviders(keys), provider, model))
  }

  // ---------------------------------------------------------------------------
  // Reply parsing

  /** `data.content` when it is an object; an array or an object without `text` has `text == None`. */
  datatype ContentField = ContentField(text: Option<string>)

  /** `choices[i].message`; `content` is `None` where it is `undefined` or `null`. */
  datatype ChoiceMessage = ChoiceMessage(content: Option<string>)
  datatype Choice = Choice(message: Option<ChoiceMessage>)

  /** The parsed JSON body of a gateway reply, reduced to the fields the parser reads. */
  datatype ReplyBody = ReplyBody(content: Option<ContentField>, choices: Option<seq<Choice>>)

  /** A gateway reply: HTTP status and the body, `None` when it is not JSON. */
  datatype HttpReply = HttpReply(status: nat, body: Option<ReplyBody>)

  datatype LlmError =
    | HttpError(status: nat)
    | BodyNotJson
    | UnexpectedFormat

  /** The message of the `Error` the parser throws. A body that is not JSON rethrows the
      engine's own `SyntaxError`, whose text is not modelled (`None`). */
  function ErrorMessage(e: LlmError): (m: Option<string>)
    ensures m.None? <==> e.BodyNotJson?
    ensures e.HttpError? ==> |m.value| > 20 && m.value[..20] == "HTTP error! status: "
    ensures e.UnexpectedFormat? ==> m == Some("Unexpected response format from AI provider")
  {
    match e
    case HttpError(status) => Some("HTTP error! status: " + NatToString(status))
    case BodyNotJson => None
    case UnexpectedFormat => Some("Unexpected response format from AI provider")
  }

  /** The status can be read back from an HTTP error's message: it is the decimal number after
      the fixed prefix. */
  lemma ErrorMessageNamesStatus(status: nat)
    ensures var m := ErrorMessage(HttpError(status)).value;
      && (forall i :: 20 <= i < |m| ==> IsDigit(m[i]))
      && DigitsValue(m[20..]) == status
  {
    var m := ErrorMessage(HttpError(status)).value;
    assert m[20..] == NatToString(status);
    NatToStringRoundTrip(status);
  }

  /** `response.ok`. */
  predicate IsOk(status: nat) {
    200 <= status <= 299
  }

  /** The Anthropic-format text, when `data.content && data.content.text` is truthy. */
  function AnthropicText(body: ReplyBody): Option<string> {
    if body.content.Some? && Truthy(body.content.value.text) then body.content.value.text else None
  }

  /** `data.choices && data.choices[0] && data.choices[0].message`: the OpenAI/Groq format. */
  predicate HasChoiceMessage(body: ReplyBody) {
    body.choices.Some? && |body.choices.value| > 0 && body.choices.value[0].message.Some?
  }

  /** `data.choices[0].message.content`, returned as it is, `undefined` or `null` included. */
  function FirstChoiceContent(body: ReplyBody): Option<string>
    requires HasChoiceMessage(body)
  {
    body.choices.value[0].message.value.content
  }

  /** The reply handling of `llmResponse` after the gateway call. `Success(None)` is a choice
      message without content, whose `undefined` or `null` is returned instead of a string. */
  function ParseReply(reply: HttpReply): (r: Result<Option<string>, LlmError>)
    ensures !IsOk(reply.status) ==> r == Failure(HttpError(reply.status))
    ensures IsOk(reply.status) && reply.body.None? ==> r == Failure(BodyNotJson)
    ensures IsOk(reply.status) && reply.body.Some? ==>
      (r.Failure? <==> AnthropicText(reply.body.value).None? && !HasChoiceMessage(reply.body.value))
    ensures r.Failure? && reply.body.Some? && IsOk(reply.status) ==> r == Failure(UnexpectedFormat)
    ensures r.Success? ==> IsOk(reply.status) && reply.body.Some?
    ensures r.Success? && AnthropicText(reply.body.value).Some? ==> r.value == AnthropicText(reply.body.value)
    ensures r.Success? && AnthropicText(reply.body.value).None? ==>
      HasChoiceMessage(reply.body.value) && r.value == FirstChoiceContent(reply.body.value)
  {
    if !IsOk(reply.status) then Failure(HttpError(reply.status))
    else match reply.body
      case None => Failure(BodyNotJson)
      case Some(body) =>
        if AnthropicText(body).Some? then Success(AnthropicText(body))
        else if HasChoiceMessage(body) then Success(FirstChoiceContent(body))
        else Failure(UnexpectedFormat)
  }

  /** An Anthropic-format reply yields its text, whatever `choices` holds: `content.text` is
      tried first. */
  lemma AnthropicReplyYieldsText(status: nat, text: string, choices: Option<seq<Choice>>)
    requires IsOk(status) && text != ""
    ensures ParseReply(HttpReply(status, Some(ReplyBody(Some(ContentField(Some(text))), choices))))
      == Success(Some(text))
  {
  }

  /** An OpenAI or Groq reply yields the first choice's message content as it is, provided no
      non-empty `content.text` is present. */
  lemma ChatCompletionReplyYieldsContent(
    status: nat, content: Option<ContentField>, message: Option<string>, rest: seq<Choice>)
    requires IsOk(status)
    requires content.None? || !Truthy(content.value.text)
    ensures ParseReply(HttpReply(status, Some(ReplyBody(content, Some([Choice(Some(ChoiceMessage(message)))] + rest)))))
      == Success(message)
  {
  }

  /** A body with neither format, such as `{}` or an empty `choices` list, is rejected. */
  lemma UnknownReplyIsRejected(status: nat, content: Option<ContentField>)
    requires IsOk(status)
    requires content.None? || !Truthy(content.value.text)
    ensures ParseReply(HttpReply(status, Some(ReplyBody(content, None)))) == Failure(UnexpectedFormat)
    ensures ParseReply(HttpReply(status, Some(ReplyBody(content, Some([]))))) == Failure(UnexpectedFormat)
  {
  }

  /** `llmResponse`: the Workers AI reply's `response` when no key is present and the binding
      exists, otherwise the parsed gateway reply. */
  function LlmResponse(
    keys: ApiKeys, hasWorkersAi: bool, accountId: string, provider: string, model: string,
    workersReply: string, gatewayReply: HttpReply): (r: Result<Option<string>, LlmError>)
    ensures CompletionRoute(keys, hasWorkersAi, accountId, provider, model).WorkersAi? ==> r == Success(Some(workersReply))
    ensures CompletionRoute(keys, hasWorkersAi, accountId, provider, model).Gateway? ==> r == ParseReply(gatewayReply)
  {
    match CompletionRoute(keys, hasWorkersAi, accountId, provider, model)
    case WorkersAi(_) => Success(Some(workersReply))
    case Gateway(_, _) => ParseReply(gatewayReply)
  }
}

=== FILE: chat_client.dfy ===
/** The chat page's handling of the answer stream (app/routes/_index.tsx): picking the
    token text out of a parsed event, the message-list reducer that extends the open
    assistant message or starts a new one, the hidden relevant-context message, the model
    selector and the list of rendered messages. React state is a value; each `setX`
    updater is applied in the order it is queued. */
module ChatClient {
  import opened Wrappers
  import opened Text
  import opened Seqs
  import ChatStream

  /** A message of the page; `isHidden` is false where the property is absent. */
  datatype UiMessage = UiMessage(content: string, role: string, isHidden: bool)

  datatype ChoiceDelta = ChoiceDelta(content: Option<string>)
  datatype StreamChoice = StreamChoice(delta: Option<ChoiceDelta>)
  datatype TextDelta = TextDelta(text: Option<string>)
  datatype ContextItem = ContextItem(text: Option<string>)

  /** A stream event after `JSON.parse`, reduced to the fields the page reads. */
  datatype StreamChunk = StreamChunk(
    response: Option<string>,
    choices: Option<seq<StreamChoice>>,
    delta: Option<TextDelta>,
    message: Option<string>,
    error: Option<string>,
    relevantContext: Option<seq<ContextItem>>,
    queries: Option<seq<string>>)

  /** `parsedChunk.choices?.[0]?.delta?.content` (OpenAI and Groq streaming format). */
  function ChoiceContent(c: StreamChunk): Option<string> {
    if c.choices.Some? && |c.choices.value| > 0 && c.choices.value[0].delta.Some?
    then c.choices.value[0].delta.value.content
    else None
  }

  /** `parsedChunk.delta?.text` (Anthropic streaming format). */
  function DeltaText(c: StreamChunk): Option<string> {
    if c.delta.Some? then c.delta.value.text else None
  }

  /** `response || choices?.[0]?.delta?.content || delta?.text || ""`. */
  function NewContent(c: StreamChunk): (r: string)
    ensures r != "" <==> Truthy(c.response) || Truthy(ChoiceContent(c)) || Truthy(DeltaText(c))
    ensures Truthy(c.response) ==> r == c.response.value
    ensures !Truthy(c.response) && Truthy(ChoiceContent(c)) ==> r == ChoiceContent(c).value
    ensures !Truthy(c.response) && !Truthy(ChoiceContent(c)) && Truthy(DeltaText(c)) ==> r == DeltaText(c).value
  {
    if Truthy(c.response) then c.response.value
    else if Truthy(ChoiceContent(c)) then ChoiceContent(c).value
    else if Truthy(DeltaText(c)) then DeltaText(c).value
    else ""
  }

  /** A Workers AI chunk `{response}` yields its text, whatever else it carries. */
  lemma WorkersAiChunkYieldsResponse(c: StreamChunk, t: string)
    requires c.response == Some(t) && t != ""
    ensures NewContent(c) == t
  {
  }

  /** An OpenAI or Groq chunk `{choices: [{delta: {content}}, …]}` yields the first choice's
      delta content when there is no `response`. */
  lemma ChatCompletionChunkYieldsDelta(c: StreamChunk, t: string, rest: seq<StreamChoice>)
    requires !Truthy(c.response) && t != ""
    requires c.choices == Some([StreamChoice(Some(ChoiceDelta(Some(t))))] + rest)
    ensures NewContent(c) == t
  {
  }

  /** An Anthropic chunk `{delta: {text}}` yields its text when neither earlier format
      carries any. */
  lemma AnthropicChunkYieldsText(c: StreamChunk, t: string)
    requires !Truthy(c.response) && !Truthy(ChoiceContent(c)) && t != ""
    requires c.delta == Some(TextDelta(Some(t)))
    ensures NewContent(c) == t
  {
  }

  /** A chunk that carries only progress fields (`message`, `queries`, context) has no token. */
  lemma ProgressChunkHasNoToken(c: StreamChunk)
    requires c.response.None? && c.choices.None? && c.delta.None?
    ensures NewContent(c) == ""
  {
  }

  /** The last message is a visible assistant message, the one tokens are appended to. */
  predicate EndsWithOpenAnswer(msgs: seq<UiMessage>) {
    |msgs| > 0 && msgs[|msgs| - 1].role == "assistant" && !msgs[|msgs| - 1].isHidden
  }

  /** The `setMessages` updater for a token `t`: extend the open assistant message unless it
      already ends with `t`, or start a new visible assistant message. */
  function AppendToken(msgs: seq<UiMessage>, t: string): (r: seq<UiMessage>)
    ensures EndsWithOpenAnswer(msgs) && !EndsWith(msgs[|msgs| - 1].content, t) ==>
      |r| == |msgs| && r[|r| - 1] == msgs[|msgs| - 1].(content := msgs[|msgs| - 1].content + t)
    ensures EndsWithOpenAnswer(msgs) && EndsWith(msgs[|msgs| - 1].content, t) ==> r == msgs
    ensures !EndsWithOpenAnswer(msgs) ==> r == msgs + [UiMessage(t, "assistant", false)]
    ensures |msgs| <= |r| <= |msgs| + 1
    ensures forall i :: 0 <= i < |msgs| - 1 ==> r[i] == msgs[i]
    ensures EndsWithOpenAnswer(r) && EndsWith(r[|r| - 1].content, t)
  {
    if EndsWithOpenAnswer(msgs) then
      var last := msgs[|msgs| - 1];
      if !EndsWith(last.content, t) then
        var extended := last.(isHidden := false, content := last.content + t);
        assert (last.content + t)[|last.content + t| - |t|..] == t;
        msgs[..|msgs| - 1] + [extended]
      else msgs
    else
      msgs + [UiMessage(t, "assistant", false)]
  }

  /** The duplicate guard makes the updater idempotent: running it twice for the same token
      (React may invoke an updater twice) leaves the list as after one run. */
  lemma AppendTokenIdempotent(msgs: seq<UiMessage>, t: string)
    ensures AppendToken(AppendToken(msgs, t), t) == AppendToken(msgs, t)
  {
  }

  /** `(ctx) => ctx.text` as `join` renders it: a missing text becomes `""`. */
  function ContextText(item: ContextItem): string {
    item.text.GetOr("")
  }

  function ContextTexts(items: seq<ContextItem>): (texts: seq<string>)
    ensures |texts| == |items|
    ensures forall i :: 0 <= i < |items| ==> texts[i] == ContextText(items[i])
  {
    seq(|items|, i requires 0 <= i < |items| => ContextText(items[i]))
  }

  /** The hidden assistant message carrying the retrieved context. */
  function ContextMessage(items: seq<ContextItem>): (m: UiMessage)
    ensures m.role == "assistant" && m.isHidden
    ensures |m.content| >= 18 && m.content[..18] == "Relevant context:\n"
    ensures |items| == 0 ==> m.content == "Relevant context:\n"
    ensures |items| >= 1 ==> JoinedAt(m.content[18..], ContextTexts(items), "\n")
  {
    var body := Join(ContextTexts(items), "\n");
    JoinLayout(ContextTexts(items), "\n");
    assert ("Relevant context:\n" + body)[18..] == body;
    UiMessage("Relevant context:\n" + body, "assistant", true)
  }

  /** After its header line, the context message splits back into the item texts, one per
      item, when no text contains a line break. */
  lemma ContextMessageSplitsIntoTexts(items: seq<ContextItem>)
    requires |items| > 0
    requires forall i :: 0 <= i < |items| ==> '\n' !in ContextText(items[i])
    ensures Split(ContextMessage(items).content[18..], '\n') == ContextTexts(items)
  {
    SplitJoin(ContextTexts(items), '\n');
    assert ContextMessage(items).content[18..] == Join(ContextTexts(items), "\n");
  }

  predicate IsShown(m: UiMessage) {
    !m.isHidden
  }

  /** `messages.filter((message) => !message.isHidden)`: what the page renders. */
  function RenderedMessages(msgs: seq<UiMessage>): (r: seq<UiMessage>)
    ensures forall m :: m in r <==> m in msgs && !m.isHidden
    ensures forall m :: multiset(r)[m] == if m.isHidden then 0 else multiset(msgs)[m]
    ensures IsSubsequence(r, msgs)
  {
    FilterMembers(IsShown, msgs);
    FilterMultiplicity(IsShown, msgs);
    FilterIsSubsequence(IsShown, msgs);
    Filter(IsShown, msgs)
  }

  /** The context message is never rendered, and a token arriving after it opens a new
      assistant message instead of extending the one before it. */
  lemma ContextMessageIsInvisible(msgs: seq<UiMessage>, items: seq<ContextItem>, t: string)
    ensures RenderedMessages(msgs + [ContextMessage(items)]) == RenderedMessages(msgs)
    ensures AppendToken(msgs + [ContextMessage(items)], t)
      == msgs + [ContextMessage(items), UiMessage(t, "assistant", false)]
  {
    FilterAppend(IsShown, msgs, [ContextMessage(items)]);
    assert Filter(IsShown, [ContextMessage(items)]) == [];
  }

  // ---------------------------------------------------------------------------
  // Model selector

  /** `onValueChange`: provider is `value.split("_")[0]` and model `value.split("_")[1]`,
      `None` (undefined) when the value has no underscore. */
  function SelectorChoice(value: string): (r: (string, Option<string>))
    ensures '_' !in r.0
    ensures r.1.None? <==> '_' !in value
    ensures r.1.None? ==> r.0 == value
    ensures r.1.Some? ==> '_' !in r.1.value && r.0 + "_" + r.1.value <= value
    ensures r.1.Some? ==>
      var e := |r.0| + 1 + |r.1.value|;
      e == |value| || (e < |value| && value[e] == '_')
  {
    var parts := Split(value, '_');
    JoinSplit(value, '_');
    if |parts| == 1 then
      SplitWithoutSeparatorIff(value, '_');
      (parts[0], None)
    else
      assert Join(parts, "_") == parts[0] + "_" + Join(parts[1..], "_");
      assert '_' in value;
      SecondPieceEnds(value, '_');
      assert |parts| > 2 ==> Join(parts[1..], "_") == parts[1] + "_" + Join(parts[2..], "_");
      (parts[0], Some(parts[1]))
  }

  /** The second piece of a split ends the string or is followed by a separator. */
  lemma SecondPieceEnds(value: string, sep: char)
    requires |Split(value, sep)| >= 2
    ensures var parts := Split(value, sep);
      var e := |parts[0]| + 1 + |parts[1]|;
      e == |value| || (e < |value| && value[e] == sep)
  {
    var parts := Split(value, sep);
    var e := |parts[0]| + 1 + |parts[1]|;
    JoinSplit(value, sep);
    assert value == parts[0] + [sep] + Join(parts[1..], [sep]);
    if |parts| > 2 {
      var tail := Join(parts[2..], [sep]);
      assert parts[1..][1..] == parts[2..];
      assert Join(parts[1..], [sep]) == parts[1] + [sep] + tail;
      assert value == parts[0] + [sep] + parts[1] + [sep] + tail;
      assert value[e] == sep;
    }
  }

  /** A one-piece split means there was no separator. */
  lemma SplitWithoutSeparatorIff(s: string, sep: char)
    requires |Split(s, sep)| == 1
    ensures sep !in s && Split(s, sep) == [s]
  {
    JoinSplit(s, sep);
  }

  /** A `provider_model` value built from underscore-free names selects exactly them. */
  lemma SelectorRoundTrip(provider: string, model: string)
    requires '_' !in provider && '_' !in model
    ensures SelectorChoice(provider + "_" + model) == (provider, Some(model))
  {
    SplitJoin([provider, model], '_');
    assert Join([provider, model], "_") == provider + "_" + model;
  }

  // ---------------------------------------------------------------------------
  // The page state and the event loop

  datatype ChatState = ChatState(
    messages: seq<UiMessage>,
    inputMessage: string,
    informative: string,
    relevantContext: seq<ContextItem>,
    queries: seq<string>,
    errorToasts: seq<string>)

  /** What the page does with one stream event; `None` is an event that is not JSON, which
      is logged and skipped. */
  function HandleEvent(s: ChatState, ev: Option<StreamChunk>): (r: ChatState)
    ensures ev.None? ==> r == s
    ensures |r.messages| >= |s.messages|
    ensures ev.Some? && NewContent(ev.value) != "" ==>
      r.informative == "" && |r.messages| >= 1 && r.messages[..|r.messages| - (if ev.value.relevantContext.Some? then 1 else 0)]
        == AppendToken(s.messages, NewContent(ev.value))
    ensures ev.Some? && ev.value.relevantContext.Some? ==>
      r.relevantContext == ev.value.relevantContext.value && |r.messages| >= 1
      && r.messages[|r.messages| - 1] == ContextMessage(ev.value.relevantContext.value)
    ensures ev.Some? && NewContent(ev.value) == "" && ev.value.relevantContext.None? ==> r.messages == s.messages
    ensures ev.Some? && NewContent(ev.value) == "" && Truthy(ev.value.message) ==>
      r.informative == ev.value.message.value && r.errorToasts == s.errorToasts
    ensures ev.Some? && NewContent(ev.value) == "" && !Truthy(ev.value.message) && Truthy(ev.value.error) ==>
      r.informative == "" && r.errorToasts == s.errorToasts + [ev.value.error.value]
    ensures ev.Some? && ev.value.relevantContext.None? ==> r.relevantContext == s.relevantContext
    ensures ev.Some? ==> r.queries == (if ev.value.queries.Some? then ev.value.queries.value else s.queries)
    ensures ev.Some? && NewContent(ev.value) != "" ==>
      r.messages == AppendToken(s.messages, NewContent(ev.value))
        + (if ev.value.relevantContext.Some? then [ContextMessage(ev.value.relevantContext.value)] else [])
    ensures ev.Some? && NewContent(ev.value) == "" && ev.value.relevantContext.Some? ==>
      r.messages == s.messages + [ContextMessage(ev.value.relevantContext.value)]
    ensures ev.Some? && NewContent(ev.value) != "" ==> r.errorToasts == s.errorToasts
    ensures ev.Some? && NewContent(ev.value) == "" && !Truthy(ev.value.message) && !Truthy(ev.value.error) ==>
      r.informative == s.informative && r.errorToasts == s.errorToasts
    ensures r.inputMessage == s.inputMessage
    ensures forall i :: 0 <= i < |s.messages| - 1 ==> r.messages[i] == s.messages[i]
  {
    match ev
    case None => s
    case Some(c) =>
      var t := NewContent(c);
      var s1 :=
        if t != "" then s.(informative := "", messages := AppendToken(s.messages, t))
        else if Truthy(c.message) then s.(informative := c.message.value)
        else if Truthy(c.error) then s.(informative := "", errorToasts := s.errorToasts + [c.error.value])
        else s;
      var s2 :=
        if c.relevantContext.Some? then
          s1.(relevantContext := c.relevantContext.value,
              messages := s1.messages + [ContextMessage(c.relevantContext.value)])
        else s1;
      if c.queries.Some? then s2.(queries := c.queries.value) else s2
  }

  /** How a message is submitted: a suggested question (a string) or the form, which carries
      the current input text. */
  datatype Submission = Question(text: string) | Form

  /** `handleSendMessage` up to the request: the new state and, when a message is sent, the
      messages posted to the stream endpoint (hidden ones included). */
  function SendMessage(s: ChatState, sub: Submission): (r: (ChatState, Option<seq<ChatStream.ChatMessage>>))
    ensures r.1.None? <==> sub.Form? && Trim(s.inputMessage) == ""
    ensures r.1.None? ==> r.0 == s
    ensures r.1.Some? ==>
      && |r.0.messages| == |s.messages| + 1
      && r.0.messages[..|s.messages|] == s.messages
      && r.0.messages[|s.messages|] == UiMessage(if sub.Question? then sub.text else s.inputMessage, "user", false)
      && r.0 == s.(messages := r.0.messages, inputMessage := "", relevantContext := [])
      && |r.1.value| == |r.0.messages|
      && (forall i :: 0 <= i < |r.0.messages| ==>
            r.1.value[i] == ChatStream.ChatMessage(r.0.messages[i].role, r.0.messages[i].content))
  {
    if sub.Question? || Trim(s.inputMessage) != "" then
      var text := if sub.Question? then sub.text else s.inputMessage;
      var msgs := s.messages + [UiMessage(text, "user", false)];
      var request := seq(|msgs|, i requires 0 <= i < |msgs| => ChatStream.ChatMessage(msgs[i].role, msgs[i].content));
      (s.(messages := msgs, inputMessage := "", relevantContext := []), Some(request))
    else (s, None)
  }
}

=== FILE: chat_stream.dfy ===
/** The pure core of the chat stream handler (functions/api/stream.ts): parsing the
    rewrite model's reply into search queries, merging the vector-index matches of all
    queries by first-seen id, assembling the context string, augmenting the chat, and the
    progress events written before the answer stream.

    Every AI and index call is an input: the rewrite reply is a value, the embedding model
    and the vector index are functions. */
module ChatStream {
  import opened Wrappers
  import opened Text
  import opened Seqs

  /** At most this many rewritten queries are kept. */
  const MaxQueries := 5

  /** A chat message `{role, content}` as the request carries it. */
  datatype ChatMessage = ChatMessage(role: string, content: string)

  /** One match of a vector-index query; `text` is `None` when `metadata` or
      `metadata.text` is missing. */
  datatype VectorMatch = VectorMatch(id: string, score: real, values: seq<real>, text: Option<string>)

  /** The options object of one `VECTORIZE_INDEX.query` call, with its query vector. */
  datatype IndexQuery = IndexQuery(
    vector: seq<real>, topK: nat, returnValues: bool, returnMetadata: string, namespace: string)

  // ---------------------------------------------------------------------------
  // Query rewriting

  /** The fixed text of the rewrite prompt before the user's message. */
  const RewriteHead :=
    "Given the following user message, rewrite it into 5 distinct queries that could be used"
    + " to search a vector database for relevant information. Each query should focus on"
    + " different aspects or potential interpretations of the original message:\n\nUser message: \""

  /** The fixed text of the rewrite prompt after the user's message. */
  const RewriteTail := "\"\n\nProvide 5 queries, one per line and nothing else:"

  /** The instruction sent to the rewrite model. The message is interpolated between the
      quotes as it is, unescaped, so it can be read back at a fixed offset whatever it holds. */
  function RewritePrompt(content: string): (p: string)
    ensures RewriteHead <= p
    ensures |p| == |RewriteHead| + |content| + |RewriteTail|
    ensures p[|RewriteHead|..|RewriteHead| + |content|] == content
    ensures p[|RewriteHead| + |content|..] == RewriteTail
  {
    var p := RewriteHead + content + RewriteTail;
    assert p[..|RewriteHead|] == RewriteHead;
    assert p[|RewriteHead|..|RewriteHead| + |content|] == content;
    assert p[|RewriteHead| + |content|..] == RewriteTail;
    p
  }

  /** The filter test on one reply line: `query.trim() !== ''`. */
  predicate IsQueryLine(line: string) {
    Trim(line) != ""
  }

  /** The non-blank lines of a reply, in order, untrimmed. */
  function ReplyLines(reply: string): seq<string> {
    Filter(IsQueryLine, Split(reply, '\n'))
  }

  /** `response.split('\n').filter(q => q.trim() !== '').slice(0, 5)`. */
  function ParseQueries(reply: string): (qs: seq<string>)
    ensures |qs| <= MaxQueries
    ensures forall i :: 0 <= i < |qs| ==> !IsBlank(qs[i]) && '\n' !in qs[i]
    ensures IsSubsequence(qs, Split(reply, '\n'))
    ensures |ReplyLines(reply)| <= MaxQueries ==> qs == ReplyLines(reply)
    ensures |ReplyLines(reply)| > MaxQueries ==> |qs| == MaxQueries
    ensures forall i :: 0 <= i < |qs| ==> qs[i] == ReplyLines(reply)[i]
  {
    var lines := ReplyLines(reply);
    FilterIsSubsequence(IsQueryLine, Split(reply, '\n'));
    forall i | 0 <= i < |lines|
      ensures !IsBlank(lines[i]) && '\n' !in lines[i]
    {
      TrimEmptyIffBlank(lines[i]);
      SubsequenceMembers(lines, Split(reply, '\n'));
      assert lines[i] in Split(reply, '\n');
    }
    if |lines| <= MaxQueries then lines
    else
      SubsequencePrefix(lines, Split(reply, '\n'), MaxQueries);
      lines[..MaxQueries]
  }

  /** Every parsed query is a verbatim line of the reply: the lines, joined back with
      line breaks, are the reply itself, and each query is one of them. */
  lemma ParsedQueriesAreReplyLines(reply: string)
    ensures Join(Split(reply, '\n'), "\n") == reply
    ensures forall q :: q in ParseQueries(reply) ==> q in Split(reply, '\n')
  {
    JoinSplit(reply, '\n');
    SubsequenceMembers(ParseQueries(reply), Split(reply, '\n'));
  }

  /** A reply whose lines are all non-blank, at most five, comes back line for line. */
  lemma {:induction false} ParseQueriesKeepsShortReply(lines: seq<string>)
    requires 1 <= |lines| <= MaxQueries
    requires forall i :: 0 <= i < |lines| ==> '\n' !in lines[i] && !IsBlank(lines[i])
    ensures ParseQueries(Join(lines, "\n")) == lines
  {
    SplitJoin(lines, '\n');
    forall i | 0 <= i < |lines|
      ensures IsQueryLine(lines[i])
    {
      TrimEmptyIffBlank(lines[i]);
    }
    FilterKeepsAll(IsQueryLine, lines);
  }

  // ---------------------------------------------------------------------------
  // First-seen merge of the match lists

  function IdSet(ms: seq<VectorMatch>): set<string> {
    set m | m in ms :: m.id
  }

  predicate IdsDistinct(ms: seq<VectorMatch>) {
    forall i, j :: 0 <= i < j < |ms| ==> ms[i].id != ms[j].id
  }

  /** `allResults.flat()` followed by each result's `matches`: all matches in
      query-then-rank order. */
  function Flatten(lists: seq<seq<VectorMatch>>): (ms: seq<VectorMatch>)
    decreases |lists|
  {
    if |lists| == 0 then [] else Flatten(lists[..|lists| - 1]) + lists[|lists| - 1]
  }

  /** Position of the first match carrying `id`. */
  function FirstIndex(ms: seq<VectorMatch>, id: string): (k: nat)
    requires id in IdSet(ms)
    ensures k < |ms| && ms[k].id == id
    ensures forall j :: 0 <= j < k ==> ms[j].id != id
    decreases |ms|
  {
    if ms[0].id == id then 0
    else
      assert exists m :: m in ms && m.id == id;
      var m :| m in ms && m.id == id;
      assert m in ms[1..];
      1 + FirstIndex(ms[1..], id)
  }

  /** The values of the insertion-ordered map `uniqueResults` after every match has been
      offered to it with `if (!has(id)) set(id, match)`. */
  function FirstSeen(ms: seq<VectorMatch>): (r: seq<VectorMatch>)
    ensures IdSet(r) == IdSet(ms)
    ensures IdsDistinct(r)
    decreases |ms|
  {
    if |ms| == 0 then []
    else
      var prev := FirstSeen(ms[..|ms| - 1]);
      var m := ms[|ms| - 1];
      assert ms == ms[..|ms| - 1] + [m];
      assert IdSet(ms) == IdSet(ms[..|ms| - 1]) + {m.id};
      if m.id in IdSet(prev) then prev
      else
        assert IdSet(prev + [m]) == IdSet(prev) + {m.id};
        prev + [m]
  }

  /** Offering one more match to the merge appends it exactly when its id is new. */
  lemma FirstSeenSnoc(init: seq<VectorMatch>, m: VectorMatch)
    ensures m.id in IdSet(init) ==> FirstSeen(init + [m]) == FirstSeen(init)
    ensures m.id !in IdSet(init) ==> FirstSeen(init + [m]) == FirstSeen(init) + [m]
  {
    assert (init + [m])[..|init|] == init;
  }

  /** Adding a match at the end does not move the first occurrence of an id already present. */
  lemma FirstIndexSnoc(ms: seq<VectorMatch>, m: VectorMatch, id: string)
    requires id in IdSet(ms)
    ensures id in IdSet(ms + [m])
    ensures FirstIndex(ms + [m], id) == FirstIndex(ms, id)
  {
    var k := FirstIndex(ms, id);
    assert (ms + [m])[k] == ms[k];
    var k' := FirstIndex(ms + [m], id);
    assert k' <= k;
  }

  /** A match whose id is new is its own first occurrence. */
  lemma FirstIndexOfNew(ms: seq<VectorMatch>, m: VectorMatch)
    requires m.id !in IdSet(ms)
    ensures m.id in IdSet(ms + [m])
    ensures FirstIndex(ms + [m], m.id) == |ms|
  {
    assert (ms + [m])[|ms|] == m;
    assert forall j :: 0 <= j < |ms| ==> (ms + [m])[j] == ms[j] && ms[j] in ms;
  }

  /** Every kept match is the first match in `ms` with its id. */
  predicate KeepsFirstOccurrences(ms: seq<VectorMatch>, r: seq<VectorMatch>) {
    forall k :: 0 <= k < |r| ==> r[k].id in IdSet(ms) && r[k] == ms[FirstIndex(ms, r[k].id)]
  }

  /** The kept matches appear in the order their ids first occur in `ms`. */
  predicate InFirstOccurrenceOrder(ms: seq<VectorMatch>, r: seq<VectorMatch>) {
    forall k, l :: 0 <= k < l < |r| && r[k].id in IdSet(ms) && r[l].id in IdSet(ms) ==>
      FirstIndex(ms, r[k].id) < FirstIndex(ms, r[l].id)
  }

  /** The first match with each id wins: later matches with the same id, from the same or a
      later query, are dropped. */
  lemma {:induction false} FirstSeenKeepsFirstOccurrence(ms: seq<VectorMatch>)
    ensures KeepsFirstOccurrences(ms, FirstSeen(ms))
    decreases |ms|
  {
    if |ms| > 0 {
      var init, m := ms[..|ms| - 1], ms[|ms| - 1];
      assert ms == init + [m];
      var prev := FirstSeen(init);
      FirstSeenSnoc(init, m);
      FirstSeenKeepsFirstOccurrence(init);
      forall k | 0 <= k < |prev|
        ensures prev[k].id in IdSet(ms) && prev[k] == ms[FirstIndex(ms, prev[k].id)]
      {
        FirstIndexSnoc(init, m, prev[k].id);
      }
      if m.id !in IdSet(init) {
        FirstIndexOfNew(init, m);
      }
    }
  }

  /** The merged matches are ordered by the first appearance of their ids. */
  lemma {:induction false} FirstSeenInFirstOccurrenceOrder(ms: seq<VectorMatch>)
    ensures InFirstOccurrenceOrder(ms, FirstSeen(ms))
    decreases |ms|
  {
    if |ms| > 0 {
      var init, m := ms[..|ms| - 1], ms[|ms| - 1];
      assert ms == init + [m];
      var prev := FirstSeen(init);
      FirstSeenSnoc(init, m);
      FirstSeenInFirstOccurrenceOrder(init);
      forall k | 0 <= k < |prev|
        ensures prev[k].id in IdSet(init)
        ensures FirstIndex(ms, prev[k].id) == FirstIndex(init, prev[k].id) < |init|
      {
        assert prev[k] in prev;
        FirstIndexSnoc(init, m, prev[k].id);
      }
      if m.id !in IdSet(init) {
        FirstIndexOfNew(init, m);
        var r := prev + [m];
        forall k, l | 0 <= k < l < |r| && r[k].id in IdSet(ms) && r[l].id in IdSet(ms)
          ensures FirstIndex(ms, r[k].id) < FirstIndex(ms, r[l].id)
        {
          assert r[k] == prev[k];
          if l < |prev| {
            assert r[l] == prev[l];
          }
        }
      }
    }
  }

  /** The merge after one more match of the current query. */
  lemma MergeStep(seenBefore: seq<VectorMatch>, matches: seq<VectorMatch>, j: nat)
    requires j < |matches|
    ensures var before := FirstSeen(seenBefore + matches[..j]);
      FirstSeen(seenBefore + matches[..j + 1])
        == if matches[j].id in IdSet(before) then before else before + [matches[j]]
  {
    assert seenBefore + matches[..j + 1] == (seenBefore + matches[..j]) + [matches[j]];
    FirstSeenSnoc(seenBefore + matches[..j], matches[j]);
  }

  /** All matches of the first `i + 1` queries are those of the first `i` followed by query `i`'s. */
  lemma FlattenStep(lists: seq<seq<VectorMatch>>, i: nat)
    requires i < |lists|
    ensures Flatten(lists[..i + 1]) == Flatten(lists[..i]) + lists[i]
  {
    assert lists[..i + 1][..i] == lists[..i];
  }

  /** The merge loop of the handler, as written: one pass over each query's matches,
      inserting a match only when its id has not been seen. */
  method MergeUnique(allResults: seq<seq<VectorMatch>>) returns (unique: seq<VectorMatch>)
    ensures unique == FirstSeen(Flatten(allResults))
    ensures IdSet(unique) == IdSet(Flatten(allResults))
    ensures IdsDistinct(unique)
  {
    unique := [];
    var i := 0;
    while i < |allResults|
      invariant 0 <= i <= |allResults|
      invariant unique == FirstSeen(Flatten(allResults[..i]))
    {
      var matches := allResults[i];
      var seenBefore := Flatten(allResults[..i]);
      var j := 0;
      assert seenBefore + matches[..0] == seenBefore;
      while j < |matches|
        invariant 0 <= j <= |matches|
        invariant unique == FirstSeen(seenBefore + matches[..j])
      {
        MergeStep(seenBefore, matches, j);
        if matches[j].id !in IdSet(unique) {
          unique := unique + [matches[j]];
        }
        j := j + 1;
      }
      assert matches[..j] == matches;
      FlattenStep(allResults, i);
      i := i + 1;
    }
    assert allResults[..i] == allResults;
  }

  // ---------------------------------------------------------------------------
  // Context assembly and augmentation

  /** `match.metadata?.text || ""` for each kept match. */
  function MatchTexts(ms: seq<VectorMatch>): (texts: seq<string>)
    ensures |texts| == |ms|
    ensures forall i :: 0 <= i < |ms| ==> texts[i] == ms[i].text.GetOr("")
  {
    seq(|ms|, i requires 0 <= i < |ms| => ms[i].text.GetOr(""))
  }

  /** `relevantDocs`: the kept texts joined with line breaks. Each text sits at its offset
      with one line break before every text but the first, whatever the texts contain. */
  function RelevantDocs(ms: seq<VectorMatch>): (docs: string)
    ensures |ms| == 0 ==> docs == ""
    ensures |ms| >= 1 ==> JoinedAt(docs, MatchTexts(ms), "\n")
  {
    JoinLayout(MatchTexts(ms), "\n");
    Join(MatchTexts(ms), "\n")
  }

  /** When no kept text contains a line break, the context string splits back into the
      kept texts, one per match, in merge order. */
  lemma RelevantDocsSplitsIntoTexts(ms: seq<VectorMatch>)
    requires |ms| >= 1
    requires forall i :: 0 <= i < |ms| ==> '\n' !in ms[i].text.GetOr("")
    ensures Split(RelevantDocs(ms), '\n') == MatchTexts(ms)
    ensures |Split(RelevantDocs(ms), '\n')| == |ms|
  {
    SplitJoin(MatchTexts(ms), '\n');
  }

  /** `messages.push({role: "user", content: "Relevant documents:\n" + relevantDocs})`. */
  function Augment(messages: seq<ChatMessage>, relevantDocs: string): (r: seq<ChatMessage>)
    ensures |r| == |messages| + 1
    ensures r[..|messages|] == messages
    ensures r[|messages|].role == "user"
    ensures r[|messages|].content == "Relevant documents:\n" + relevantDocs
  {
    messages + [ChatMessage("user", "Relevant documents:\n" + relevantDocs)]
  }

  // ---------------------------------------------------------------------------
  // Progress events

  /** One server-sent event: `data: <payload>` followed by a blank line. */
  function Frame(payload: string): string {
    "data: " + payload + "\n\n"
  }

  /** The payload of an event written by `Frame`, or `None` when the text is not one. */
  function Unframe(event: string): (p: Option<string>)
    ensures p.Some? ==> Frame(p.value) == event
  {
    if |event| >= 8 && event[..6] == "data: " && event[|event| - 2..] == "\n\n"
    then Some(event[6..|event| - 2])
    else None
  }

  lemma UnframeFrame(payload: string)
    ensures Unframe(Frame(payload)) == Some(payload)
  {
    var e := Frame(payload);
    assert e[..6] == "data: ";
    assert e[|e| - 2..] == "\n\n";
    assert e[6..|e| - 2] == payload;
  }

  function RewritingEvent(): string {
    Frame("{\"message\": \"Rewriting message to queries...\"}")
  }

  /** The queries are interpolated with `${queries}`, i.e. joined with commas, unescaped. */
  function QueryingEvent(queries: seq<string>): string {
    Frame("{\"message\": \"Querying vector index...\", \"queries\": \"" + Join(queries, ",") + "\"}")
  }

  /** The payload of the third event up to the opening quote of the context string. */
  const FoundHead := "{\"message\": \"Found relevant documents...\", \"relevantDocs\": \""

  /** The context string is interpolated unescaped. */
  function FoundPayload(relevantDocs: string): string {
    FoundHead + relevantDocs + "\"}"
  }

  function FoundEvent(relevantDocs: string): string {
    Frame(FoundPayload(relevantDocs))
  }

  /** With two or more kept matches, the line break that joins the first two texts lands inside
      the quoted `relevantDocs` value of the third event's payload, where JSON allows no raw
      line break, whatever the texts hold. */
  lemma FoundEventBreaksLine(ms: seq<VectorMatch>)
    requires |ms| >= 2
    ensures var texts := MatchTexts(ms);
      && Unframe(FoundEvent(RelevantDocs(ms))) == Some(FoundPayload(RelevantDocs(ms)))
      && |FoundHead| + |texts[0]| < |FoundHead| + |RelevantDocs(ms)|
      && FoundPayload(RelevantDocs(ms))[|FoundHead| + |texts[0]|] == '\n'
  {
    var texts := MatchTexts(ms);
    var docs := RelevantDocs(ms);
    UnframeFrame(FoundPayload(docs));
    assert docs == texts[0] + "\n" + Join(texts[1..], "\n");
    assert docs[|texts[0]|] == '\n';
    assert FoundPayload(docs)[|FoundHead| + |texts[0]|] == docs[|texts[0]|];
  }

  /** The progress events, in the order they are written. */
  function ProgressEvents(queries: seq<string>, relevantDocs: string): (events: seq<string>)
    ensures |events| == 3
    ensures events[0] == RewritingEvent()
    ensures events[1] == QueryingEvent(queries)
    ensures events[2] == FoundEvent(relevantDocs)
  {
    [RewritingEvent(), QueryingEvent(queries), FoundEvent(relevantDocs)]
  }

  // ---------------------------------------------------------------------------
  // The handler

  /** The options of every vector-index query the handler issues. */
  function IndexQueryFor(vector: seq<real>): IndexQuery {
    IndexQuery(vector, 5, true, "all", "default")
  }

  /** One index query per rewritten query, each on that query's embedding. */
  function IndexQueries(queries: seq<string>, embed: string -> seq<real>): (r: seq<IndexQuery>)
    ensures |r| == |queries|
    ensures forall i :: 0 <= i < |r| ==>
      r[i].namespace == "default" && r[i].topK == 5 && r[i].vector == embed(queries[i])
      && r[i].returnValues && r[i].returnMetadata == "all"
  {
    seq(|queries|, i requires 0 <= i < |queries| => IndexQueryFor(embed(queries[i])))
  }

  /** The match lists of all index queries, in query order (`Promise.all` keeps order). */
  function SearchAll(qs: seq<IndexQuery>, search: IndexQuery -> seq<VectorMatch>): (r: seq<seq<VectorMatch>>)
    ensures |r| == |qs|
    ensures forall i :: 0 <= i < |qs| ==> r[i] == search(qs[i])
  {
    seq(|qs|, i requires 0 <= i < |qs| => search(qs[i]))
  }

  /** What one chat request does before the answer stream: the message it asks the rewrite
      model to rewrite (the whole prompt), the queries it keeps, the index queries it issues, the events it writes,
      the matches it keeps and the messages it sends to the answer model. */
  datatype ChatRun = ChatRun(
    rewritePrompt: string,
    queries: seq<string>,
    indexQueries: seq<IndexQuery>,
    kept: seq<VectorMatch>,
    events: seq<string>,
    augmented: seq<ChatMessage>)

  datatype ChatFailure = NoLastMessage

  /** The request handler up to the answer stream. `rewrite` is the rewrite model: its
      `response` to a one-message prompt; `embed` returns `data[0]` of the embedding model's reply for one query;
      `search` is the vector index. An empty message list fails reading the last message,
      before any event is written. */
  function HandleChat(
    messages: seq<ChatMessage>,
    rewrite: string -> string,
    embed: string -> seq<real>,
    search: IndexQuery -> seq<VectorMatch>): (r: Result<ChatRun, ChatFailure>)
    ensures r.Failure? <==> |messages| == 0
    ensures r.Success? ==> r.value.rewritePrompt == RewritePrompt(messages[|messages| - 1].content)
    ensures r.Success? ==> r.value.queries == ParseQueries(rewrite(r.value.rewritePrompt))
    ensures r.Success? ==> r.value.indexQueries == IndexQueries(r.value.queries, embed)
    ensures r.Success? ==> |r.value.indexQueries| == |r.value.queries| <= MaxQueries
    ensures r.Success? ==> r.value.kept == FirstSeen(Flatten(SearchAll(r.value.indexQueries, search)))
    ensures r.Success? ==> IdsDistinct(r.value.kept)
    ensures r.Success? ==> r.value.events == ProgressEvents(r.value.queries, RelevantDocs(r.value.kept))
    ensures r.Success? ==> |r.value.augmented| == |messages| + 1 && r.value.augmented[..|messages|] == messages
    ensures r.Success? ==>
      r.value.augmented[|messages|] == ChatMessage("user", "Relevant documents:\n" + RelevantDocs(r.value.kept))
  {
    if |messages| == 0 then Failure(NoLastMessage)
    else
      var query := messages[|messages| - 1].content;
      var prompt := RewritePrompt(query);
      var queries := ParseQueries(rewrite(prompt));
      var indexQueries := IndexQueries(queries, embed);
      var allResults := SearchAll(indexQueries, search);
      var kept := FirstSeen(Flatten(allResults));
      var docs := RelevantDocs(kept);
      Success(ChatRun(
        prompt,
        queries,
        indexQueries,
        kept,
        ProgressEvents(queries, docs),
        Augment(messages, docs)))
  }

  /** The bytes the client receives: the three progress events, then either the answer
      stream piped through verbatim or, when starting it fails, `"Error: " + error`. */
  function ResponseBody(run: ChatRun, answer: Result<string, string>): (body: string)
    ensures Concat(run.events) <= body
    ensures answer.Success? ==> body == Concat(run.events) + answer.value
    ensures answer.Failure? ==> body == Concat(run.events) + "Error: " + answer.error
  {
    var prefix := Concat(run.events);
    match answer
    case Success(stream) => prefix + stream
    case Failure(error) => prefix + "Error: " + error
  }

  function Concat(parts: seq<string>): string
    decreases |parts|
  {
    if |parts| == 0 then "" else parts[0] + Concat(parts[1..])
  }
}

=== FILE: file_upload.dfy ===
/** Upload status bookkeeping of the file picker (app/components/fileUpload.tsx): the file
    list, the per-file status map, dropping failed files, and the status transitions driven
    by the upload endpoint's events. The upload request itself is an input: for each file,
    the events the client reads and whether the request fails. */
module FileUpload {
  import opened Wrappers
  import opened Text
  import opened Seqs

  /** A picked file. */
  datatype PickedFile = PickedFile(name: string, fileType: string, size: nat)

  /** One entry of the `fileInfo` map. */
  datatype FileStatus = FileStatus(chunks: nat, status: string, error: Option<string>)

  type FileInfo = map<string, FileStatus>

  datatype UploadState = UploadState(files: seq<PickedFile>, info: FileInfo)

  const Uploading := FileStatus(0, "Uploading...", None)
  const NetworkError := FileStatus(0, "error", Some("Network error"))

  /** The status written for a file of type `"test"`. */
  const TestFileStatus := FileStatus(129, "success", None)

  /** The stand-in file that replaces the list for a `"test"` file: 777777 copies of `"test"`. */
  function TestStandIn(name: string): PickedFile {
    PickedFile(name, "application/pdf", 777777 * 4)
  }

  predicate HasErrorStatus(info: FileInfo, name: string) {
    name in info && info[name].status == "error"
  }

  // ---------------------------------------------------------------------------
  // removeErrorFiles

  /** `removeErrorFiles`: drop files whose entry has status `"error"` and delete those entries. */
  function RemoveErrorFiles(s: UploadState): (r: UploadState)
    ensures forall name :: name in r.info ==> r.info[name].status != "error"
    ensures forall name :: name in r.info <==> name in s.info && s.info[name].status != "error"
    ensures forall name :: name in r.info ==> r.info[name] == s.info[name]
    ensures forall f :: f in r.files <==> f in s.files && !HasErrorStatus(s.info, f.name)
    ensures forall f :: multiset(r.files)[f] == if HasErrorStatus(s.info, f.name) then 0 else multiset(s.files)[f]
    ensures IsSubsequence(r.files, s.files)
  {
    var keep := (f: PickedFile) => !HasErrorStatus(s.info, f.name);
    FilterMembers(keep, s.files);
    FilterMultiplicity(keep, s.files);
    FilterIsSubsequence(keep, s.files);
    UploadState(
      Filter(keep, s.files),
      map name | name in s.info && s.info[name].status != "error" :: s.info[name])
  }

  /** Files without a status entry survive, and nothing else is dropped when no entry is an error. */
  lemma RemoveErrorFilesKeepsClean(s: UploadState)
    requires forall name :: name in s.info ==> s.info[name].status != "error"
    ensures RemoveErrorFiles(s) == s
  {
    var keep := (f: PickedFile) => !HasErrorStatus(s.info, f.name);
    FilterKeepsAll(keep, s.files);
    var r := RemoveErrorFiles(s);
    assert r.info == s.info;
  }

  /** Removing error files twice is the same as removing them once. */
  lemma RemoveErrorFilesIdempotent(s: UploadState)
    ensures RemoveErrorFiles(RemoveErrorFiles(s)) == RemoveErrorFiles(s)
  {
    RemoveErrorFilesKeepsClean(RemoveErrorFiles(s));
  }

  // ---------------------------------------------------------------------------
  // Upload events

  /** An upload event after `JSON.parse`: `chunks` is present when the event carries an array. */
  datatype UploadEvent = UploadEvent(error: Option<string>, chunks: Option<seq<string>>, message: Option<string>)

  /** What reading one file's upload stream yields: the events in order (`None` for data that
      is not JSON, which throws) and whether the request fails after them. */
  datatype UploadReply = UploadReply(events: seq<Option<UploadEvent>>, failsAfter: bool)

  /** The status write for one event, and whether the whole change handler returns.
      Precedence: `error`, then `chunks`, then `message`. */
  function ApplyEvent(info: FileInfo, name: string, ev: UploadEvent): (r: (FileInfo, bool))
    ensures r.1 <==> Truthy(ev.error)
    ensures Truthy(ev.error) ==> r.0 == info[name := FileStatus(0, "error", ev.error)]
    ensures !Truthy(ev.error) && ev.chunks.Some? ==>
      r.0 == info[name := FileStatus(|ev.chunks.value|, "success", None)]
    ensures !Truthy(ev.error) && ev.chunks.None? && Truthy(ev.message) ==>
      r.0 == info[name := FileStatus(0, ev.message.value, None)]
    ensures !Truthy(ev.error) && ev.chunks.None? && !Truthy(ev.message) ==> r.0 == info
    ensures forall k :: k != name ==> (k in r.0 <==> k in info) && (k in info ==> r.0[k] == info[k])
  {
    if Truthy(ev.error) then (info[name := FileStatus(0, "error", ev.error)], true)
    else if ev.chunks.Some? then (info[name := FileStatus(|ev.chunks.value|, "success", None)], false)
    else if Truthy(ev.message) then (info[name := FileStatus(0, ev.message.value, None)], false)
    else (info, false)
  }

  /** Events that all parse and carry no truthy `error`: reading them neither throws nor
      returns from the handler. */
  predicate QuietEvents(events: seq<Option<UploadEvent>>) {
    forall i :: 0 <= i < |events| ==> events[i].Some? && !Truthy(events[i].value.error)
  }

  /** Reading one file's events inside the `try`: an error event stops everything; data that is
      not JSON or a failing request lands in the `catch`, which records a network error and
      moves on to the next file. Returns the map and whether the handler returned. */
  function RunEvents(info: FileInfo, name: string, events: seq<Option<UploadEvent>>, failsAfter: bool): (r: (FileInfo, bool))
    ensures forall k :: k != name ==> (k in r.0 <==> k in info) && (k in info ==> r.0[k] == info[k])
    ensures name in info ==> name in r.0
    ensures r.1 ==> name in r.0 && r.0[name].status == "error" && Truthy(r.0[name].error)
    ensures r.1 ==> exists ev :: Some(ev) in events && Truthy(ev.error)
    ensures QuietEvents(events) && failsAfter ==> r == (info[name := NetworkError], false)
    decreases |events|
  {
    if |events| == 0 then
      if failsAfter then (info[name := NetworkError], false) else (info, false)
    else match events[0]
      case None => (info[name := NetworkError], false)
      case Some(ev) =>
        var (info1, stop) := ApplyEvent(info, name, ev);
        if stop then (info1, true)
        else
          var r := RunEvents(info1, name, events[1..], failsAfter);
          assert QuietEvents(events) ==> QuietEvents(events[1..]);
          assert info1[name := NetworkError] == info[name := NetworkError];
          r
  }

  /** A later write to the file's entry hides what an event without an error wrote there. */
  lemma OverwriteAfterEvent(info: FileInfo, name: string, ev: UploadEvent, v: FileStatus)
    requires !Truthy(ev.error)
    ensures ApplyEvent(info, name, ev).0[name := v] == info[name := v]
  {
  }

  /** An event without an error never returns: reading goes on with the rest of the events. */
  lemma RunEventsStep(info: FileInfo, name: string, events: seq<Option<UploadEvent>>, failsAfter: bool)
    requires |events| >= 1 && events[0].Some? && !Truthy(events[0].value.error)
    ensures RunEvents(info, name, events, failsAfter)
      == RunEvents(ApplyEvent(info, name, events[0].value).0, name, events[1..], failsAfter)
  {
  }

  /** Data that is not JSON throws inside the `try`, after any number of events that parsed and
      carried no error: the file is marked with a network error, whatever the earlier events
      wrote, and the handler goes on to the next file. */
  lemma {:induction false} UnparseableEventIsNetworkError(
    info: FileInfo, name: string, before: seq<Option<UploadEvent>>, rest: seq<Option<UploadEvent>>, failsAfter: bool)
    requires QuietEvents(before)
    ensures RunEvents(info, name, before + [None] + rest, failsAfter) == (info[name := NetworkError], false)
    decreases |before|
  {
    var evs := before + [None] + rest;
    if |before| == 0 {
      assert evs[0] == None;
    } else {
      var info1 := ApplyEvent(info, name, before[0].value).0;
      assert evs[0] == before[0];
      assert evs[1..] == before[1..] + [None] + rest;
      RunEventsStep(info, name, evs, failsAfter);
      UnparseableEventIsNetworkError(info1, name, before[1..], rest, failsAfter);
      OverwriteAfterEvent(info, name, before[0].value, NetworkError);
    }
  }

  /** A reply with no events and no failure leaves the map as it was. */
  lemma QuietReplyChangesNothing(info: FileInfo, name: string)
    ensures RunEvents(info, name, [], false) == (info, false)
  {
  }

  /** An error event, after any number of events that parsed and carried no error, ends the
      handler with the file marked as failed, whatever the earlier events wrote and whatever
      follows. */
  lemma {:induction false} ErrorEventStops(
    info: FileInfo, name: string, before: seq<Option<UploadEvent>>, ev: UploadEvent,
    rest: seq<Option<UploadEvent>>, failsAfter: bool)
    requires QuietEvents(before)
    requires Truthy(ev.error)
    ensures RunEvents(info, name, before + [Some(ev)] + rest, failsAfter)
      == (info[name := FileStatus(0, "error", ev.error)], true)
    decreases |before|
  {
    var evs := before + [Some(ev)] + rest;
    if |before| == 0 {
      assert evs[0] == Some(ev);
    } else {
      var info1 := ApplyEvent(info, name, before[0].value).0;
      assert evs[0] == before[0];
      assert evs[1..] == before[1..] + [Some(ev)] + rest;
      RunEventsStep(info, name, evs, failsAfter);
      ErrorEventStops(info1, name, before[1..], ev, rest, failsAfter);
      OverwriteAfterEvent(info, name, before[0].value, FileStatus(0, "error", ev.error));
    }
  }

  // ---------------------------------------------------------------------------
  // handleFileChange

  /** The loop over the new files, after they have been appended to the list. */
  function UploadFiles(s: UploadState, newFiles: seq<PickedFile>, reply: PickedFile -> UploadReply): (r: UploadState)
    ensures forall k :: (forall i :: 0 <= i < |newFiles| ==> newFiles[i].name != k) ==>
      (k in r.info <==> k in s.info) && (k in s.info ==> r.info[k] == s.info[k])
    ensures r.files == s.files || exists f :: f in newFiles && f.fileType == "test" && r.files == [TestStandIn(f.name)]
    ensures (forall i :: 0 <= i < |newFiles| ==> newFiles[i].fileType != "test") ==> r.files == s.files
    decreases |newFiles|
  {
    if |newFiles| == 0 then s
    else
      var f := newFiles[0];
      if f.fileType == "test" then
        UploadState([TestStandIn(f.name)], s.info[f.name := TestFileStatus])
      else
        var reading := reply(f);
        var (info, stop) := RunEvents(s.info[f.name := Uploading], f.name, reading.events, reading.failsAfter);
        if stop then s.(info := info)
        else UploadFiles(s.(info := info), newFiles[1..], reply)
  }

  /** `handleFileChange`: drop failed files, append the new ones, then upload them in order. */
  function HandleFileChange(s: UploadState, newFiles: seq<PickedFile>, reply: PickedFile -> UploadReply): (r: UploadState)
    ensures forall k :: (forall i :: 0 <= i < |newFiles| ==> newFiles[i].name != k) ==>
      (k in r.info <==> k in s.info && s.info[k].status != "error")
      && (k in r.info ==> r.info[k] == s.info[k])
    ensures r.files == RemoveErrorFiles(s).files + newFiles
      || exists f :: f in newFiles && f.fileType == "test" && r.files == [TestStandIn(f.name)]
    ensures (forall i :: 0 <= i < |newFiles| ==> newFiles[i].fileType != "test") ==>
      r.files == RemoveErrorFiles(s).files + newFiles
  {
    var cleaned := RemoveErrorFiles(s);
    UploadFiles(cleaned.(files := cleaned.files + newFiles), newFiles, reply)
  }

  /** A `"test"` file short-circuits the handler: it is marked as 129 chunks uploaded and the
      list becomes the single stand-in file, with no request made. */
  lemma TestFileShortCircuits(s: UploadState, f: PickedFile, rest: seq<PickedFile>, reply: PickedFile -> UploadReply)
    requires f.fileType == "test"
    ensures UploadFiles(s, [f] + rest, reply) == UploadState([TestStandIn(f.name)], s.info[f.name := TestFileStatus])
  {
  }

  /** Before its request is read, a file's entry is `{chunks: 0, status: "Uploading..."}`; a
      reply with no events and no failure leaves it so. */
  lemma SilentReplyLeavesUploading(s: UploadState, f: PickedFile, reply: PickedFile -> UploadReply)
    requires f.fileType != "test"
    requires reply(f) == UploadReply([], false)
    ensures UploadFiles(s, [f], reply).info[f.name] == Uploading
  {
    assert ([f] + [])[1..] == [];
  }

  /** Events none of which is an error event: reading them never returns from the handler. */
  predicate NeverStops(events: seq<Option<UploadEvent>>) {
    forall i :: 0 <= i < |events| ==> events[i].None? || !Truthy(events[i].value.error)
  }

  /** An error event on one file, after any number of quiet events, returns from the handler:
      the file is marked as failed, the file list is kept, and no later file is requested. The
      file may come after any number of uploads that end without an error event. */
  lemma {:induction false} ErrorStopsLaterFiles(
    s: UploadState, earlier: seq<PickedFile>, f: PickedFile, later: seq<PickedFile>,
    reply: PickedFile -> UploadReply,
    before: seq<Option<UploadEvent>>, ev: UploadEvent, after: seq<Option<UploadEvent>>)
    requires forall i :: 0 <= i < |earlier| ==> earlier[i].fileType != "test" && NeverStops(reply(earlier[i]).events)
    requires f.fileType != "test"
    requires reply(f).events == before + [Some(ev)] + after
    requires QuietEvents(before) && Truthy(ev.error)
    ensures UploadFiles(s, earlier + [f] + later, reply) == UploadFiles(s, earlier + [f], reply)
    ensures var r := UploadFiles(s, earlier + [f] + later, reply);
      f.name in r.info && r.info[f.name] == FileStatus(0, "error", ev.error)
    ensures UploadFiles(s, earlier + [f] + later, reply).files == s.files
    decreases |earlier|
  {
    var all, upTo := earlier + [f] + later, earlier + [f];
    if |earlier| == 0 {
      assert all[0] == f && upTo[0] == f;
      ErrorEventStops(s.info[f.name := Uploading], f.name, before, ev, after, reply(f).failsAfter);
    } else {
      var p := earlier[0];
      var run := RunEvents(s.info[p.name := Uploading], p.name, reply(p).events, reply(p).failsAfter);
      assert !run.1;
      assert all[0] == p && upTo[0] == p;
      assert all[1..] == earlier[1..] + [f] + later;
      assert upTo[1..] == earlier[1..] + [f];
      ErrorStopsLaterFiles(s.(info := run.0), earlier[1..], f, later, reply, before, ev, after);
    }
  }
}

=== FILE: seqs.dfy ===
/** Order-preserving selection over sequences: `Array.prototype.filter` and the
    subsequence relation used to state that an operation keeps elements in order. */
module Seqs {

  /** `xs.filter(p)`. */
  function Filter<T>(p: T -> bool, xs: seq<T>): (r: seq<T>)
    ensures |r| <= |xs|
    ensures forall i :: 0 <= i < |r| ==> p(r[i])
    decreases |xs|
  {
    if |xs| == 0 then []
    else if p(xs[0]) then [xs[0]] + Filter(p, xs[1..])
    else Filter(p, xs[1..])
  }

  /** `xs` can be obtained from `ys` by deleting elements, keeping the order of the rest. */
  predicate IsSubsequence<T(==)>(xs: seq<T>, ys: seq<T>)
    decreases |ys|
  {
    || |xs| == 0
    || (&& |ys| > 0
        && ((xs[0] == ys[0] && IsSubsequence(xs[1..], ys[1..])) || IsSubsequence(xs, ys[1..])))
  }

  /** One step of a filter. */
  lemma FilterCons<T>(p: T -> bool, x: T, xs: seq<T>)
    ensures Filter(p, [x] + xs) == (if p(x) then [x] else []) + Filter(p, xs)
  {
    assert ([x] + xs)[1..] == xs;
  }

  /** A filter keeps exactly the elements satisfying `p`. */
  lemma {:induction false} FilterMembers<T>(p: T -> bool, xs: seq<T>)
    ensures forall x :: x in Filter(p, xs) <==> x in xs && p(x)
    decreases |xs|
  {
    if |xs| > 0 {
      FilterMembers(p, xs[1..]);
      assert forall x :: x in xs <==> x == xs[0] || x in xs[1..];
    }
  }

  /** A filter keeps every copy of an element satisfying `p` and no copy of any other:
      it drops no duplicates. */
  lemma {:induction false} FilterMultiplicity<T>(p: T -> bool, xs: seq<T>)
    ensures forall x :: multiset(Filter(p, xs))[x] == if p(x) then multiset(xs)[x] else 0
    decreases |xs|
  {
    if |xs| > 0 {
      FilterMultiplicity(p, xs[1..]);
      assert xs == [xs[0]] + xs[1..];
      assert multiset(xs) == multiset{xs[0]} + multiset(xs[1..]);
    }
  }

  /** A filter keeps its elements in their original order. */
  lemma {:induction false} FilterIsSubsequence<T>(p: T -> bool, xs: seq<T>)
    ensures IsSubsequence(Filter(p, xs), xs)
    decreases |xs|
  {
    if |xs| > 0 {
      FilterIsSubsequence(p, xs[1..]);
      if p(xs[0]) {
        assert ([xs[0]] + Filter(p, xs[1..]))[1..] == Filter(p, xs[1..]);
      }
    }
  }

  /** When every element satisfies `p`, the filter returns its input. */
  lemma {:induction false} FilterKeepsAll<T>(p: T -> bool, xs: seq<T>)
    requires forall i :: 0 <= i < |xs| ==> p(xs[i])
    ensures Filter(p, xs) == xs
    decreases |xs|
  {
    if |xs| > 0 {
      FilterKeepsAll(p, xs[1..]);
      assert xs == [xs[0]] + xs[1..];
    }
  }

  /** Filtering distributes over concatenation. */
  lemma {:induction false} FilterAppend<T>(p: T -> bool, xs: seq<T>, ys: seq<T>)
    ensures Filter(p, xs + ys) == Filter(p, xs) + Filter(p, ys)
    decreases |xs|
  {
    if |xs| > 0 {
      assert (xs + ys)[1..] == xs[1..] + ys;
      FilterAppend(p, xs[1..], ys);
    } else {
      assert xs + ys == ys;
    }
  }

  /** Every element of a subsequence occurs in the larger sequence. */
  lemma {:induction false} SubsequenceMembers<T>(xs: seq<T>, ys: seq<T>)
    requires IsSubsequence(xs, ys)
    ensures forall x :: x in xs ==> x in ys
    decreases |ys|
  {
    if |xs| > 0 {
      if xs[0] == ys[0] && IsSubsequence(xs[1..], ys[1..]) {
        SubsequenceMembers(xs[1..], ys[1..]);
        assert forall x :: x in xs ==> x == xs[0] || x in xs[1..];
      } else {
        SubsequenceMembers(xs, ys[1..]);
      }
    }
  }

  /** A prefix of a subsequence is again a subsequence. */
  lemma {:induction false} SubsequencePrefix<T>(xs: seq<T>, ys: seq<T>, k: nat)
    requires IsSubsequence(xs, ys)
    requires k <= |xs|
    ensures IsSubsequence(xs[..k], ys)
    decreases |ys|
  {
    if k > 0 {
      if xs[0] == ys[0] && IsSubsequence(xs[1..], ys[1..]) {
        SubsequencePrefix(xs[1..], ys[1..], k - 1);
        assert xs[..k][1..] == xs[1..][..k - 1];
      } else {
        SubsequencePrefix(xs, ys[1..], k);
      }
    }
  }
}

=== FILE: text.dfy ===
/** The JavaScript string operations the handlers rely on, over `string` (`seq<char>`):
    `split` on one character, `join`, `trim`, `endsWith`, and decimal rendering of
    non-negative integers (template-literal interpolation of a number). */
module Text {
  import opened Wrappers

  /** JavaScript truthiness of an optional string: present and non-empty. */
  predicate Truthy(s: Option<string>) {
    s.Some? && s.value != ""
  }

  /** Characters removed by `String.prototype.trim`: the WhiteSpace and LineTerminator
      code points of ECMAScript (section 12.2 and 12.3 of ECMA-262). */
  predicate IsWhitespace(c: char) {
    || c == ' ' || c == '\t' || c == '\n' || c == '\r'
    || c == '\U{000B}' || c == '\U{000C}' || c == '\U{00A0}' || c == '\U{FEFF}'
    || c == '\U{1680}' || ('\U{2000}' <= c <= '\U{200A}')
    || c == '\U{2028}' || c == '\U{2029}' || c == '\U{202F}' || c == '\U{205F}' || c == '\U{3000}'
  }

  /** Every character of `s` is whitespace (this includes the empty string). */
  predicate IsBlank(s: string) {
    forall i :: 0 <= i < |s| ==> IsWhitespace(s[i])
  }

  /** `s.trimStart()`: the suffix of `s` left after dropping leading whitespace. */
  function TrimStart(s: string): (r: string)
    ensures |r| <= |s| && r == s[|s| - |r|..]
    ensures forall i :: 0 <= i < |s| - |r| ==> IsWhitespace(s[i])
    ensures |r| > 0 ==> !IsWhitespace(r[0])
    decreases |s|
  {
    if |s| > 0 && IsWhitespace(s[0]) then TrimStart(s[1..]) else s
  }

  /** `s.trimEnd()`: the prefix of `s` left after dropping trailing whitespace. */
  function TrimEnd(s: string): (r: string)
    ensures |r| <= |s| && r == s[..|r|]
    ensures forall i :: |r| <= i < |s| ==> IsWhitespace(s[i])
    ensures |r| > 0 ==> !IsWhitespace(r[|r| - 1])
    decreases |s|
  {
    if |s| > 0 && IsWhitespace(s[|s| - 1]) then TrimEnd(s[..|s| - 1]) else s
  }

  /** `s.trim()`. */
  function Trim(s: string): string {
    TrimEnd(TrimStart(s))
  }

  /** `s.trim() !== ''` holds exactly when `s` has a non-whitespace character. */
  lemma TrimEmptyIffBlank(s: string)
    ensures Trim(s) == "" <==> IsBlank(s)
  {
  }

  /** `s.split(sep)` for a one-character separator: the pieces between separators,
      always at least one (`"".split("\n")` is `[""]`). */
  function Split(s: string, sep: char): (parts: seq<string>)
    ensures |parts| >= 1
    ensures forall i :: 0 <= i < |parts| ==> sep !in parts[i]
    decreases |s|
  {
    if |s| == 0 then [""]
    else
      var rest := Split(s[1..], sep);
      if s[0] == sep then [""] + rest
      else [[s[0]] + rest[0]] + rest[1..]
  }

  /** `parts.join(sep)`; the empty list joins to `""`. */
  function Join(parts: seq<string>, sep: string): string
    decreases |parts|
  {
    if |parts| == 0 then ""
    else if |parts| == 1 then parts[0]
    else parts[0] + sep + Join(parts[1..], sep)
  }

  /** Where piece `i` of a join starts, for a separator of length `n`: the lengths of the
      earlier pieces, each followed by one separator. */
  function JoinOffset(parts: seq<string>, n: nat, i: nat): nat
    requires i <= |parts|
    decreases i
  {
    if i == 0 then 0 else JoinOffset(parts, n, i - 1) + |parts[i - 1]| + n
  }

  /** `s` is laid out as the pieces with `sep` between them: each piece at its offset, a
      separator just before every piece but the first, and the last piece ending `s`. */
  predicate JoinedAt(s: string, parts: seq<string>, sep: string)
    requires |parts| >= 1
  {
    && |s| == JoinOffset(parts, |sep|, |parts| - 1) + |parts[|parts| - 1]|
    && (forall i :: 0 <= i < |parts| ==>
          && JoinOffset(parts, |sep|, i) + |parts[i]| <= |s|
          && s[JoinOffset(parts, |sep|, i)..JoinOffset(parts, |sep|, i) + |parts[i]|] == parts[i])
    && (forall i :: 1 <= i < |parts| ==>
          && |sep| <= JoinOffset(parts, |sep|, i) <= |s|
          && s[JoinOffset(parts, |sep|, i) - |sep|..JoinOffset(parts, |sep|, i)] == sep)
  }

  /** Offsets in `parts` are offsets in `parts[1..]` moved past the first piece and its separator. */
  lemma {:induction false} JoinOffsetShift(parts: seq<string>, n: nat, i: nat)
    requires 1 <= i <= |parts|
    ensures JoinOffset(parts, n, i) == |parts[0]| + n + JoinOffset(parts[1..], n, i - 1)
    decreases i
  {
    if i > 1 {
      JoinOffsetShift(parts, n, i - 1);
      assert parts[1..][i - 2] == parts[i - 1];
    }
  }

  /** The length of a join: the offset of the last piece plus that piece. */
  lemma {:induction false} JoinLength(parts: seq<string>, sep: string)
    requires |parts| >= 1
    ensures |Join(parts, sep)| == JoinOffset(parts, |sep|, |parts| - 1) + |parts[|parts| - 1]|
    decreases |parts|
  {
    if |parts| > 1 {
      JoinLength(parts[1..], sep);
      JoinOffsetShift(parts, |sep|, |parts| - 1);
    }
  }

  /** A piece ending within `t` is still in place once `a + sep` is put in front. */
  lemma PieceAfterPrefix(a: string, sep: string, t: string, o: nat, piece: string)
    requires o + |piece| <= |t| && t[o..o + |piece|] == piece
    ensures (a + sep + t)[|a| + |sep| + o..|a| + |sep| + o + |piece|] == piece
  {
    var s := a + sep + t;
    assert s[|a| + |sep|..] == t;
    assert s[|a| + |sep| + o..|a| + |sep| + o + |piece|] == t[o..o + |piece|];
  }

  /** Piece `i` of a join sits at its offset. */
  lemma {:induction false} JoinPieceAt(parts: seq<string>, sep: string, i: nat)
    requires i < |parts|
    ensures JoinOffset(parts, |sep|, i) + |parts[i]| <= |Join(parts, sep)|
    ensures Join(parts, sep)[JoinOffset(parts, |sep|, i)..JoinOffset(parts, |sep|, i) + |parts[i]|] == parts[i]
    decreases |parts|
  {
    if |parts| > 1 {
      var s' := Join(parts[1..], sep);
      assert Join(parts, sep) == parts[0] + sep + s';
      if i > 0 {
        JoinOffsetShift(parts, |sep|, i);
        JoinPieceAt(parts[1..], sep, i - 1);
        assert parts[1..][i - 1] == parts[i];
        PieceAfterPrefix(parts[0], sep, s', JoinOffset(parts[1..], |sep|, i - 1), parts[i]);
      } else {
        assert (parts[0] + sep + s')[..|parts[0]|] == parts[0];
      }
    }
  }

  /** Every piece of a join sits at its offset. */
  lemma JoinPieces(parts: seq<string>, sep: string)
    ensures forall i :: 0 <= i < |parts| ==>
      && JoinOffset(parts, |sep|, i) + |parts[i]| <= |Join(parts, sep)|
      && Join(parts, sep)[JoinOffset(parts, |sep|, i)..JoinOffset(parts, |sep|, i) + |parts[i]|] == parts[i]
  {
    forall i | 0 <= i < |parts|
      ensures && JoinOffset(parts, |sep|, i) + |parts[i]| <= |Join(parts, sep)|
              && Join(parts, sep)[JoinOffset(parts, |sep|, i)..JoinOffset(parts, |sep|, i) + |parts[i]|] == parts[i]
    {
      JoinPieceAt(parts, sep, i);
    }
  }

  /** A separator ending at `o` in `t` still ends at the shifted offset once `a + sep` is put in front. */
  lemma SeparatorAfterPrefix(a: string, sep: string, t: string, o: nat)
    requires |sep| <= o <= |t| && t[o - |sep|..o] == sep
    ensures (a + sep + t)[|a| + o..|a| + |sep| + o] == sep
  {
    var s := a + sep + t;
    assert s[|a| + |sep|..] == t;
    assert s[|a| + o..|a| + |sep| + o] == t[o - |sep|..o];
  }

  /** Piece `i` of a join, other than the first, is preceded by the separator. */
  lemma {:induction false} JoinSeparatorAt(parts: seq<string>, sep: string, i: nat)
    requires 1 <= i < |parts|
    ensures |sep| <= JoinOffset(parts, |sep|, i) <= |Join(parts, sep)|
    ensures Join(parts, sep)[JoinOffset(parts, |sep|, i) - |sep|..JoinOffset(parts, |sep|, i)] == sep
    decreases |parts|
  {
    var n := |sep|;
    var s' := Join(parts[1..], sep);
    assert Join(parts, sep) == parts[0] + sep + s';
    JoinOffsetShift(parts, n, i);
    if i > 1 {
      JoinSeparatorAt(parts[1..], sep, i - 1);
      SeparatorAfterPrefix(parts[0], sep, s', JoinOffset(parts[1..], n, i - 1));
    } else {
      assert (parts[0] + sep + s')[|parts[0]|..|parts[0]| + n] == sep;
    }
  }

  /** Every piece of a join but the first is preceded by the separator. */
  lemma JoinSeparators(parts: seq<string>, sep: string)
    requires |parts| >= 1
    ensures forall i :: 1 <= i < |parts| ==>
      && |sep| <= JoinOffset(parts, |sep|, i) <= |Join(parts, sep)|
      && Join(parts, sep)[JoinOffset(parts, |sep|, i) - |sep|..JoinOffset(parts, |sep|, i)] == sep
  {
    forall i | 1 <= i < |parts|
      ensures && |sep| <= JoinOffset(parts, |sep|, i) <= |Join(parts, sep)|
              && Join(parts, sep)[JoinOffset(parts, |sep|, i) - |sep|..JoinOffset(parts, |sep|, i)] == sep
    {
      JoinSeparatorAt(parts, sep, i);
    }
  }

  /** A join is laid out as `JoinedAt` describes, whatever the pieces contain. */
  lemma JoinLayout(parts: seq<string>, sep: string)
    ensures |parts| >= 1 ==> JoinedAt(Join(parts, sep), parts, sep)
  {
    if |parts| >= 1 {
      JoinLength(parts, sep);
      JoinPieces(parts, sep);
      JoinSeparators(parts, sep);
    }
  }

  /** Joining the pieces of a split with the separator gives the original string back. */
  lemma {:induction false} JoinSplit(s: string, sep: char)
    ensures Join(Split(s, sep), [sep]) == s
    decreases |s|
  {
    if |s| > 0 {
      var rest := Split(s[1..], sep);
      JoinSplit(s[1..], sep);
      if s[0] == sep {
        assert Split(s, sep) == [""] + rest;
        assert ([""] + rest)[1..] == rest;
        assert s == [sep] + s[1..];
      } else if |rest| == 1 {
        assert Split(s, sep) == [[s[0]] + rest[0]];
        assert s == [s[0]] + s[1..];
      } else {
        var parts := [[s[0]] + rest[0]] + rest[1..];
        assert Split(s, sep) == parts;
        assert parts[1..] == rest[1..];
        assert Join(rest, [sep]) == rest[0] + [sep] + Join(rest[1..], [sep]);
        assert s == [s[0]] + s[1..];
      }
    }
  }

  /** A string without the separator splits into itself alone. */
  lemma {:induction false} SplitWithoutSeparator(a: string, sep: char)
    requires sep !in a
    ensures Split(a, sep) == [a]
    decreases |a|
  {
    if |a| > 0 {
      SplitWithoutSeparator(a[1..], sep);
      assert a == [a[0]] + a[1..];
    }
  }

  /** Splitting `a + sep + t`, where `a` has no separator, yields `a` followed by the pieces of `t`. */
  lemma {:induction false} SplitAfterPiece(a: string, sep: char, t: string)
    requires sep !in a
    ensures Split(a + [sep] + t, sep) == [a] + Split(t, sep)
    decreases |a|
  {
    var s := a + [sep] + t;
    if |a| == 0 {
      assert s[1..] == t;
    } else {
      assert s[1..] == a[1..] + [sep] + t;
      SplitAfterPiece(a[1..], sep, t);
      assert a == [a[0]] + a[1..];
    }
  }

  /** Splitting a join gives back the pieces, provided there is at least one piece and no
      piece contains the separator. */
  lemma {:induction false} SplitJoin(parts: seq<string>, sep: char)
    requires |parts| >= 1
    requires forall i :: 0 <= i < |parts| ==> sep !in parts[i]
    ensures Split(Join(parts, [sep]), sep) == parts
    decreases |parts|
  {
    if |parts| == 1 {
      SplitWithoutSeparator(parts[0], sep);
    } else {
      SplitJoin(parts[1..], sep);
      SplitAfterPiece(parts[0], sep, Join(parts[1..], [sep]));
      assert parts == [parts[0]] + parts[1..];
    }
  }

  /** `SplitJoin` as an implication, for callers that cannot branch on its precondition. */
  lemma SplitJoinWhenFree(parts: seq<string>, sep: char)
    ensures |parts| >= 1 && (forall i :: 0 <= i < |parts| ==> sep !in parts[i]) ==>
      Split(Join(parts, [sep]), sep) == parts
  {
    if |parts| >= 1 && (forall i :: 0 <= i < |parts| ==> sep !in parts[i]) {
      SplitJoin(parts, sep);
    }
  }

  /** `s.endsWith(suffix)`. */
  predicate EndsWith(s: string, suffix: string) {
    |suffix| <= |s| && s[|s| - |suffix|..] == suffix
  }

  predicate IsDigit(c: char) {
    '0' as int <= c as int <= '9' as int
  }

  function DigitChar(d: nat): (c: char)
    requires d < 10
    ensures IsDigit(c)
  {
    (48 + d) as char
  }

  /** Decimal rendering of a non-negative integer, as `${n}` prints it: no sign,
      no leading zero except for 0 itself. */
  function NatToString(n: nat): (s: string)
    ensures |s| >= 1
    ensures forall i :: 0 <= i < |s| ==> IsDigit(s[i])
    ensures |s| > 1 ==> s[0] != '0'
    decreases n
  {
    if n < 10 then [DigitChar(n)] else NatToString(n / 10) + [DigitChar(n % 10)]
  }

  /** The value of a string of decimal digits. */
  function DigitsValue(s: string): nat
    requires forall i :: 0 <= i < |s| ==> IsDigit(s[i])
    decreases |s|
  {
    if |s| == 0 then 0
    else
      assert IsDigit(s[|s| - 1]);
      DigitsValue(s[..|s| - 1]) * 10 + (s[|s| - 1] as int - '0' as int)
  }

  /** Reading back a rendered number gives the number. */
  lemma {:induction false} NatToStringRoundTrip(n: nat)
    ensures DigitsValue(NatToString(n)) == n
    decreases n
  {
    var s := NatToString(n);
    if n >= 10 {
      NatToStringRoundTrip(n / 10);
      assert s[..|s| - 1] == NatToString(n / 10);
    }
  }

  /** Different numbers render differently. */
  lemma NatToStringInjective(a: nat, b: nat)
    ensures NatToString(a) == NatToString(b) ==> a == b
  {
    NatToStringRoundTrip(a);
    NatToStringRoundTrip(b);
  }
}

=== FILE: upload_handler.dfy ===
/** The upload endpoint (functions/api/upload.ts): request and file checks, normalisation
    of the extracted text, and the vector records and reply built from the chunks and their
    embeddings. PDF extraction, the text splitter, the embedding model, the index insert and
    the clock are inputs. */
module UploadHandler {
  import opened Wrappers
  import opened Text

  /** The value of the `pdf` form field. */
  datatype FormValue =
    | Absent                                                // `formData.get` returned null
    | TextField(text: string)                               // a plain string field
    | FileField(name: string, fileType: string, size: nat, hasArrayBuffer: bool)

  datatype UploadRequest = UploadRequest(httpMethod: string, pdf: FormValue)

  /** What `extractText(pdf, {mergePages: true})` returns as `text`: one string, or one per page. */
  datatype ExtractedText = Merged(text: string) | Pages(pages: seq<string>)

  /** One record inserted into the vector index. */
  datatype VectorRecord = VectorRecord(id: string, values: seq<real>, namespace: string, text: Option<string>)

  /** The JSON reply of a successful upload. */
  datatype UploadInfo = UploadInfo(name: string, fileType: string, size: nat, chunks: seq<string>, insertResult: string)

  datatype UploadResponse =
    | Rejected(status: nat, body: string)
    | Accepted(records: seq<VectorRecord>, info: UploadInfo)

  const NotPost := "Expected a POST request with a file"
  const NotAFile := "Please upload a PDF file."

  /** The file check: present, an object, and with an `arrayBuffer` function. A string field
      is never a file; an empty string is falsy. */
  predicate IsUploadableFile(v: FormValue) {
    v.FileField? && v.hasArrayBuffer
  }

  /** `Array.isArray(result.text) ? result.text.join(" ") : result.text`. */
  function TextContent(e: ExtractedText): (t: string)
    ensures e.Merged? ==> t == e.text
    ensures e.Pages? && |e.pages| == 0 ==> t == ""
    ensures e.Pages? && |e.pages| == 1 ==> t == e.pages[0]
    ensures e.Pages? && |e.pages| > 1 ==> e.pages[0] + " " <= t
    ensures e.Pages? && |e.pages| >= 1 ==> JoinedAt(t, e.pages, " ")
    ensures e.Pages? && |e.pages| >= 1 && (forall i :: 0 <= i < |e.pages| ==> ' ' !in e.pages[i]) ==>
      Split(t, ' ') == e.pages
  {
    match e
    case Merged(text) => text
    case Pages(pages) =>
      JoinLayout(pages, " ");
      SplitJoinWhenFree(pages, ' ');
      Join(pages, " ")
  }

  /** `${ts}-${name}-${index}`. */
  function RecordId(ts: nat, name: string, index: nat): string {
    NatToString(ts) + "-" + name + "-" + NatToString(index)
  }

  /** `data.map((embedding, index) => ({...}))`: one record per embedding, in order.
      `now(i)` is the clock read while building record `i`; `chunks[index]` is undefined past
      the end of the chunk list. */
  function BuildRecords(now: nat -> nat, name: string, chunks: seq<string>, data: seq<seq<real>>): (rs: seq<VectorRecord>)
    ensures |rs| == |data|
    ensures forall i :: 0 <= i < |rs| ==>
      && rs[i].id == RecordId(now(i), name, i)
      && rs[i].values == data[i]
      && rs[i].namespace == "default"
      && rs[i].text == (if i < |chunks| then Some(chunks[i]) else None)
  {
    seq(|data|, i requires 0 <= i < |data| =>
      VectorRecord(RecordId(now(i), name, i), data[i], "default", if i < |chunks| then Some(chunks[i]) else None))
  }

  /** Where the shorter prefix ends, one string has its `-` and the other does not. */
  lemma DashPositionDiffers(a: string, b: string, ra: string, rb: string)
    requires |a| < |b| && '-' !in b
    ensures (a + "-" + ra)[|a|] != (b + "-" + rb)[|a|]
  {
    assert (b + "-" + rb)[|a|] == b[|a|];
  }

  /** A prefix without the separator is determined by the position of the first separator. */
  lemma SamePrefixBeforeDash(a: string, b: string, ra: string, rb: string)
    requires '-' !in a && '-' !in b
    requires a + "-" + ra == b + "-" + rb
    ensures a == b && ra == rb
  {
    var s := a + "-" + ra;
    if |a| < |b| {
      DashPositionDiffers(a, b, ra, rb);
      assert false;
    } else if |b| < |a| {
      DashPositionDiffers(b, a, rb, ra);
      assert false;
    }
    assert a == s[..|a|] == b;
    assert ra == s[|a| + 1..] == rb;
  }

  lemma DigitsHaveNoDash(n: nat)
    ensures '-' !in NatToString(n)
  {
  }

  /** Two ids built for the same file name are equal only for the same index and clock
      reading: the clock renders as digits, which never contain `-`. */
  lemma RecordIdInjective(t1: nat, t2: nat, name: string, i: nat, j: nat)
    requires RecordId(t1, name, i) == RecordId(t2, name, j)
    ensures i == j && t1 == t2
  {
    DigitsHaveNoDash(t1);
    DigitsHaveNoDash(t2);
    var r1 := name + "-" + NatToString(i);
    var r2 := name + "-" + NatToString(j);
    assert RecordId(t1, name, i) == NatToString(t1) + "-" + r1;
    assert RecordId(t2, name, j) == NatToString(t2) + "-" + r2;
    SamePrefixBeforeDash(NatToString(t1), NatToString(t2), r1, r2);
    NatToStringInjective(t1, t2);
    assert NatToString(i) == r1[|name| + 1..];
    assert NatToString(j) == r2[|name| + 1..];
    NatToStringInjective(i, j);
  }

  /** The ids of one upload are pairwise distinct, whatever the clock reads. */
  lemma RecordIdsDistinct(now: nat -> nat, name: string, chunks: seq<string>, data: seq<seq<real>>)
    ensures forall i, j :: 0 <= i < j < |data| ==>
      BuildRecords(now, name, chunks, data)[i].id != BuildRecords(now, name, chunks, data)[j].id
  {
    var rs := BuildRecords(now, name, chunks, data);
    forall i, j | 0 <= i < j < |data|
      ensures rs[i].id != rs[j].id
    {
      if rs[i].id == rs[j].id {
        RecordIdInjective(now(i), now(j), name, i, j);
      }
    }
  }

  /** With as many chunks as embeddings, the records carry exactly the chunk list. */
  lemma RecordsCarryChunks(now: nat -> nat, name: string, chunks: seq<string>, data: seq<seq<real>>)
    requires |chunks| == |data|
    ensures forall i :: 0 <= i < |chunks| ==> BuildRecords(now, name, chunks, data)[i].text == Some(chunks[i])
  {
  }

  /** The handler. `split` is the text splitter (chunk size 1000, overlap 200), `embed` the
      embedding model applied to all chunks at once, `insertResult` what the index insert
      returned. */
  function HandleUpload(
    req: UploadRequest, extracted: ExtractedText,
    split: string -> seq<string>, embed: seq<string> -> seq<seq<real>>,
    now: nat -> nat, insertResult: string): (r: UploadResponse)
    ensures req.httpMethod != "POST" ==> r == Rejected(400, NotPost)
    ensures req.httpMethod == "POST" && !IsUploadableFile(req.pdf) ==> r == Rejected(400, NotAFile)
    ensures r.Accepted? <==> req.httpMethod == "POST" && IsUploadableFile(req.pdf)
    ensures r.Accepted? ==>
      && r.info.chunks == split(TextContent(extracted))
      && r.info.name == req.pdf.name && r.info.fileType == req.pdf.fileType && r.info.size == req.pdf.size
      && r.info.insertResult == insertResult
      && r.records == BuildRecords(now, req.pdf.name, r.info.chunks, embed(r.info.chunks))
  {
    if req.httpMethod != "POST" then Rejected(400, NotPost)
    else if !IsUploadableFile(req.pdf) then Rejected(400, NotAFile)
    else
      var chunks := split(TextContent(extracted));
      var records := BuildRecords(now, req.pdf.name, chunks, embed(chunks));
      Accepted(records, UploadInfo(req.pdf.name, req.pdf.fileType, req.pdf.size, chunks, insertResult))
  }
}

=== FILE: wrappers.dfy ===
/** Optional values and results with an error, shared by every module of the model.
    `None` stands for JavaScript `undefined` (a missing property). */
module Wrappers {

  datatype Option<+T> = None | Some(value: T) {

    /** The value, or `default` when missing (JavaScript `x ?? default`). */
    function GetOr(default: T): T {
      match this
      case Some(v) => v
      case None => default
    }
  }

  datatype Result<+R, +E> = Success(value: R) | Failure(error: E)
}
